=== FILE: README.md ===
# Relvanta platform core, modelled in Dafny

Relvanta is a content platform. A FastAPI backend serves products, services,
labs and pages from MongoDB and authenticates users through Firebase-backed
sessions. A Next.js front end renders the content, validates every response
with Zod schemas, and redirects legacy paths through an edge proxy. This
project models the rules at the core of both halves and proves properties
about them:

- **Redirects** (`frontend-next/proxy.ts`). The proxy keeps an in-memory
  redirect table and refreshes it from the backend when it is empty or older
  than five minutes. It skips `/_next`, `/api` and dotted paths, and answers a
  matching path with 308 (permanent) or 307. One request is a pure step from
  (cache, clock, URL, fetch outcome) to (new cache, action, whether a fetch
  happened). A run is a fold of that step.
- **Auth** (`backend/server.py`). This covers:
  - which token a request carries (the cookie first, then the
    `Authorization` header with every `"Bearer "` removed);
  - session expiry, and deletion of an expired session;
  - `require_auth`, logout and the `COOKIE_SECURE` setting;
  - `create_session`, which upserts the user and issues a seven-day session
    and its cookie.

  The clock, the `uuid4` hex strings and Firebase verification are
  parameters.
- **Catalog** (`backend/server.py`). The database queries that
  `list_products`, `list_services` and `list_labs` build from their optional
  filters, and the stable `(order, status rank, name)` sort of
  `list_products`.
- **Access** (`backend/server.py`). Who may read a client-access record, and
  the default record returned when none is stored.
- **Navigation** (`frontend-next/lib/navigation.ts`,
  `frontend-next/components/layout/MobileNav.tsx`). The main menu sort with
  `order || 999`, the footer, and which mobile tab is highlighted for a path.
- **Enums and Content** (`backend/models.py`, `frontend-next/lib/schemas.ts`).
  The enumerations and the field constraints declared twice, once in Pydantic
  and once in Zod: slug and colour patterns, length bounds, visibility and
  optional fields. The two sides are compared on the JSON the backend emits.

Supporting modules:

- `Base`: `Option`, the `Response` of a handler (a value or a raised HTTP
  error), and Python truthiness of optional strings.
- `Text`: Python and JavaScript string operations. These are `startsWith`,
  `str.replace`, `strip` with Python's white-space set, ASCII `lower`,
  UTF-16 length and Python's string `<`.
- `Sorting`: a stable insertion sort by key, proved sorted, a permutation and
  stable.
- `Regex`: the anchored character-class patterns the validators use, with a
  backtracking matcher and its meaning.

Two places where the two sides of the platform disagree are modelled as
written:

- Zod's `.max(n)` counts UTF-16 code units. Pydantic's `max_length` counts
  code points. `Content.LengthChecks` and `Content.AstralNameRejected` state
  the consequences.
- `Redirect.permanent` defaults to true in the model. `list_redirects` returns
  raw documents, however, so that default never reaches the proxy.

## Model

| member | source | states |
|---|---|---|
| Text.RemoveAll | backend/server.py:82 | `str.replace("Bearer ", "")`; the result is never longer than the input, and its partner lemmas below fix it on every input |
| Text.RemoveAllAbsent | backend/server.py:82 | a string without the pattern is returned unchanged |
| Text.RemoveAllLeading | backend/server.py:152 | a leading `"Bearer "` is deleted and the scan resumes after it |
| Text.RemoveAllKeepsPrefix | backend/server.py:82 | text in which no occurrence of the pattern starts is copied unchanged, and the scan goes on after it |
| Text.RemoveAllFirst | backend/server.py:152 | the first occurrence, wherever it starts, is deleted: the text before it is kept and the scan resumes after it |
| Text.RemoveAllInnerExample | backend/server.py:152 | `"xBearer tok"` becomes `"xtok"` |
| Text.Strip | backend/server.py:58 | `strip()`: the result neither starts nor ends with Python white space and is no longer than the input |
| Text.IsSpace | backend/server.py:58 | Python's `str.isspace` set: the ASCII white space, the separators `\x1c`-`\x1f`, and the Unicode space characters |
| Text.StripFrames | backend/server.py:58 | the stripped string is the input minus a white-space prefix and a white-space suffix |
| Text.StripFramed | backend/server.py:58 | stripping `w1 + v + w2` with white-space frames and non-space ends of `v` gives back exactly `v` |
| Text.LowerAscii | backend/server.py:58 | `lower()` keeps the length and lower-cases each character on its own |
| Text.Utf16Length | frontend-next/lib/schemas.ts:60-62 | a JavaScript `length` lies between the code-point count and twice it, and equals it exactly when no character is astral |
| Text.Utf16AllAstral | frontend-next/lib/schemas.ts:60 | a string made only of astral characters has twice as many UTF-16 units |
| Text.StrLtTransitive | backend/server.py:310 | Python's string `<` is transitive |
| Text.StrLt | backend/server.py:310 | Python's `<` on strings: the first differing code point decides, and a proper prefix comes first |
| Text.StrLtConnected | backend/server.py:310 | any two distinct strings are ordered one way or the other |
| Sorting.Insert | backend/server.py:313 | insertion adds exactly one element and keeps all the others |
| Sorting.SortBy | backend/server.py:313 | the sort is a permutation of its input of the same length |
| Sorting.InsertSorted | backend/server.py:313 | inserting into a key-sorted sequence keeps it sorted |
| Sorting.SortBySorted | backend/server.py:313 | the sort's result is ordered by key |
| Sorting.InsertMatching | backend/server.py:313 | insertion places the new element after every element with an equal key |
| Sorting.SortByStable | backend/server.py:313 | for every key, the elements with that key keep their input order |
| Sorting.SortByCorrect | frontend-next/lib/navigation.ts:23 | the sort is ordered, a permutation, and stable for every key |
| Sorting.SortBySortedIsIdentity | frontend-next/lib/navigation.ts:17-24 | a sequence that is already ordered by key is its own sort |
| Sorting.SortByIdempotent | backend/server.py:313 | sorting twice gives the same result as sorting once |
| Regex.MatchRunMeaning | backend/models.py:52 | a piece followed by the rest of a pattern matches exactly when some admissible run of class characters is followed by a match of the rest |
| Regex.SinglePiece | backend/models.py:52 | a one-piece pattern matches exactly the strings of class characters whose length is within the repetition bounds |
| Regex.OneThenPiece | backend/models.py:78 | a single fixed character followed by a piece matches exactly that character followed by a match of the piece |
| Redirects.FetchRedirects | frontend-next/proxy.ts:11-34 | it fetches exactly when the table is empty or at least five minutes old; a successful response replaces the table (`redirects` or `[]`) and stamps it with the current time; a failure or non-OK response keeps both |
| Redirects.Find | frontend-next/proxy.ts:51 | `find` returns the first rule whose `from` equals the path, or nothing when none does |
| Redirects.Resolve | frontend-next/proxy.ts:50-60 | a request is redirected exactly when some rule matches; the target keeps the query string, takes the first matching rule's `to`, and carries 308 exactly when that rule is permanent, otherwise 307 |
| Redirects.Proxy | frontend-next/proxy.ts:37-61 | `/_next`, `/api` and dotted paths pass without touching the cache; otherwise a fetch happens exactly when the table is not fresh, a successful fetch's table is kept and stamped with the current time, a failed one leaves the cache as it was, and the action is resolved against the resulting table |
| Redirects.CacheHitIgnoresFetch | frontend-next/proxy.ts:15-17 | while the table is fresh, no fetch happens and the outcome does not depend on what a fetch would return |
| Redirects.RefreshServesUntilExpiry | frontend-next/proxy.ts:24-28 | after a refresh that delivered a non-empty table, every request in the next five minutes is answered from that table without a fetch |
| Redirects.FailedRefreshServesStale | frontend-next/proxy.ts:29-33 | a failed refresh keeps the table and its timestamp, and the request is answered from the stale table |
| Redirects.EmptyTablePassesOn | frontend-next/proxy.ts:7-8 | from the initial empty cache, when a fetch fails or delivers no rules, every request passes on |
| Redirects.BypassIsRawPrefix | frontend-next/proxy.ts:41-47 | the bypass is a raw prefix test: `/apiary` is skipped like `/api/...` |
| Redirects.RunReplacesWholesale | frontend-next/proxy.ts:26-27 | over any run of requests, the cached table is the initial one or exactly the table one request delivered, stamped with that request's time |
| Redirects.StaleScenario | frontend-next/proxy.ts:15-31 | a temporary rule fetched at 0 redirects `/blog` with 307 from cache at 100000 ms; at 400000 ms the refresh fails and the stale rule still redirects |
| Redirects.Bypassed | frontend-next/proxy.ts:41-47 | the paths `proxy` passes on untouched: raw prefixes `/_next` and `/api`, or any `.` |
| Redirects.IsFresh | frontend-next/proxy.ts:15 | the cached table is served as is when it is non-empty and younger than five minutes |
| Redirects.Delivered | frontend-next/proxy.ts:23-31 | an OK response with a parsable body delivers `data.redirects || []`; anything else delivers nothing |
| Enums.ParseVisibility | backend/models.py:12-15 | a string parses exactly when it is the value of a `Visibility` member, and then to that member |
| Enums.ParseStatus | backend/models.py:18-24 | the same round trip for `Status` |
| Enums.ParseLabStatus | backend/models.py:27-32 | the same round trip for `LabStatus` |
| Enums.ParseEngagementType | backend/models.py:35-38 | the same round trip for `EngagementType` |
| Enums.ParseRole | backend/models.py:41-44 | the same round trip for `Role` |
| Enums.StatusValueSet | backend/models.py:18-24 | the `Status` values are exactly idea, pilot, beta, live, deprecated, archived |
| Enums.LabStatusValueSet | backend/models.py:27-32 | the `LabStatus` values are exactly hypothesis, running, validated, failed, graduated |
| Enums.VisibilityValueSet | backend/models.py:12-15 | the `Visibility` values are exactly public, protected, labs |
| Enums.EngagementTypeValueSet | backend/models.py:35-38 | the `EngagementType` values are exactly pilot, project, retainer |
| Enums.RoleValueSet | backend/models.py:41-44 | the `Role` values are exactly admin, collaborator, client |
| Enums.EnumSizes | backend/models.py:12-44 | the enumerations have 3, 6, 5, 3 and 3 distinct values |
| Auth.CookieSecure | backend/server.py:58-62 | an unset `COOKIE_SECURE` makes the cookie secure |
| Auth.CookieSecureFramed | backend/server.py:58-62 | the flag is read from the value between any surrounding white space, lower-cased, against `1`, `true`, `yes` |
| Auth.CookieSecureEmptyIsFalse | backend/server.py:58-62 | a variable that is set but empty disables the flag |
| Auth.SelectToken | backend/server.py:82-85 | a truthy cookie wins; otherwise the token is the header with every `"Bearer "` removed; an empty token counts as none |
| Auth.ToUtc | backend/server.py:98-101 | a naive stored `expires_at` is read as UTC; an aware one is its own instant |
| Auth.Expired | backend/server.py:103 | a session is expired when its `expires_at` lies strictly before now |
| Auth.BearerHeaderToken | backend/server.py:82 | without a cookie, `Bearer <tok>` yields `<tok>` when `tok` is non-empty and holds no further `"Bearer "` |
| Auth.CurrentUser | backend/server.py:74-117 | a user is found exactly when the token names a stored session that has not expired and whose user exists; an expired session is deleted and nothing else changes |
| Auth.RequireAuth | backend/server.py:120-128 | 401 exactly when no current user is found, otherwise that user |
| Auth.Logout | backend/server.py:246-268 | the session the token names is deleted and every other session is kept unchanged |
| Auth.LogoutEndsSession | backend/server.py:253-257 | after logout the same credentials no longer authenticate |
| Auth.BeforeAt | backend/server.py:163 | `split("@")[0]` holds no `@` and is the input's prefix up to its first `@`, or the whole input |
| Auth.ValidAuthHeader | backend/server.py:147-148 | the header is present, non-empty and starts with `"Bearer "` |
| Auth.ValidClaims | backend/server.py:166 | the claims carry a truthy `uid` and a truthy `email` |
| Auth.UniqueEmails | backend/server.py:170-200 | no two stored users share an email |
| Auth.FoundByEmail | backend/server.py:170-173 | `existing` is the id of a stored user with the email, or nothing when no stored user has it |
| Auth.Establish | backend/server.py:169-224 | given the user `find_one` found for the email: the new session is stored under its token and belongs to the stored user, who carries the claimed email, the given name and the claimed picture; users stay keyed by id; the session expires seven days after `now`; the cookie `session_token` carries the token, is `httponly`, has the configured `secure` flag, path `/` and a seven-day `max_age`; a new user is a client without organization, an existing user keeps its id and role; no other user or session changes; no email comes to belong to two users |
| Auth.SecondSignInReusesAccount | backend/server.py:170-200 | after a sign-in, looking the same email up again finds the user that sign-in stored, so a second sign-in makes no second account |
| Auth.Admit | backend/server.py:166-224 | invalid claims (no truthy `uid` or `email`) are answered with 400 "Invalid token claims"; valid ones give exactly the session `Establish` creates, so everything stated for it holds |
| Auth.CreateSessionAsWritten | backend/server.py:135-167 | `create_session` as written: a bad header gives 400, every error is 400, 401 or 500, and it fails with 500 exactly when the header is well formed and the token verifies to claims with neither `email` nor a truthy `name` |
| Auth.DisplayName | backend/server.py:163 | the display name is the truthy `name` claim, or else the email's part before its first `@`, which holds no `@` |
| Auth.CreateSession | backend/server.py:146-228 | the corrected handler raises only 400 or 401: 400 exactly for a bad header or invalid claims, 401 exactly for a token Firebase rejects; a success is the session `Establish` creates for the verified claims and their display name |
| Auth.MissingEmailCrashes | backend/server.py:161-167 | claims with neither `name` nor `email` make the written handler fail with 500, while the corrected one answers 400 |
| Auth.MissingEmailExample | backend/server.py:161-167 | a concrete input: header `Bearer tok` whose claims hold only a `uid` gives 500 as written |
| Auth.UnconfiguredVerifierRejectsAll | backend/firebase_config.py:12-55 | with `initialize_firebase` returning nothing on every path, the verifier rejects every token, so both versions of the handler answer every well-formed header with 401 |
| Auth.CreateSessionFixIsConservative | backend/server.py:161-167 | wherever the written handler does not fail with 500, the corrected one returns exactly the same |
| Auth.NewSessionLastsSevenDays | backend/server.py:96-106 | a fresh cookie authenticates its user up to and including seven days after creation, and afterwards is rejected and its session deleted |
| Catalog.ProductQuery | backend/server.py:286-298 | the query always filters on visibility (the given one, or `public` when none or an empty one is given), and on status and category exactly when they are supplied |
| Catalog.Selects | backend/server.py:301 | MongoDB's equality filter: the document holds exactly the queried value in every queried field |
| Catalog.DefaultListsOnlyPublic | backend/server.py:288-292 | without a visibility filter only public products are selected, whatever the other filters |
| Catalog.ProtectedListedAnonymously | backend/server.py:282-292 | as written, a request carrying no credentials that asks for `visibility=protected` selects every protected product |
| Catalog.ProductQueryFor | backend/server.py:284 | the documented rule: an authenticated caller's filters are used as given, an unauthenticated caller's visibility becomes `public`, and the other filters are the same either way |
| Catalog.AnonymousListsOnlyPublic | backend/server.py:284 | under the documented rule, an unauthenticated caller is shown public products only, whatever visibility it asks for |
| Catalog.FiltersNarrow | backend/server.py:294-298 | a product selected with status or category filters is also selected without them |
| Catalog.ServiceQuery | backend/server.py:346-354 | visibility (given or `public`) always, engagement type exactly when supplied |
| Catalog.LabQuery | backend/server.py:396-399 | visibility is always `labs`; status exactly when supplied |
| Catalog.StatusRank | backend/server.py:306-309 | a known status ranks 0 to 5, anything else 999 |
| Catalog.StatusRankOrder | backend/server.py:306 | live < beta < pilot < idea < deprecated < archived < any unknown status |
| Catalog.KeyOf | backend/server.py:305-311 | the key is the stored order or 999, the rank of the stored status or of idea when there is none, and the stored name or the empty string |
| Catalog.KeyLt | backend/server.py:307-313 | Python's `<` on the key tuples: order first, then rank, then name |
| Catalog.KeyLtIsStrictTotalOrder | backend/server.py:307-311 | tuple comparison of the keys is a strict total order |
| Catalog.ListProducts | backend/server.py:300-318 | the request fails with 500 exactly when some returned document does not validate as a `Product`; otherwise the listing is a stable, key-ordered permutation of the documents, and `total` is their number |
| Catalog.Validates | backend/models.py:48-85 | `Product(**p)` on the fields the model follows: slug pattern, a `Visibility` value, a name of 1 to 100 characters, a `Status` value and a category |
| Catalog.ListedKeysUseStoredFields | backend/server.py:305-316 | in a successful listing every product has a stored status and name, so its key uses them and its rank is 0 to 5: the missing-field defaults of `sort_key` never shape a response |
| Catalog.ListingOrder | backend/server.py:305-313 | a product without an order is never followed by one whose order is below 999; among equal orders, live products come first |
| Access.DefaultAccess | backend/server.py:482-489 | the default record belongs to the requested user, has empty scopes and only `read` permission, and is granted now |
| Access.MayRead | backend/server.py:474 | a user may read their own record, and an admin may read any |
| Access.GetClientAccess | backend/server.py:464-491 | an authentication error propagates; a non-admin asking for another user's record gets 403; success exactly for the owner or an admin, with the stored record or the default |
| Access.ClientsSeeOnlyTheirOwn | backend/server.py:473-475 | a non-admin asking for someone else's record is refused with 403, whatever is stored |
| Access.UnauthenticatedGets401 | backend/server.py:471 | a request without a valid session gets 401 before any ownership check |
| Navigation.EffectiveOrder | frontend-next/lib/navigation.ts:23 | a missing order and an order of 0 are both falsy and count as 999 |
| Navigation.OrderLtIsStrictTotalOrder | frontend-next/lib/navigation.ts:23 | the comparator orders effective orders strictly and totally |
| Navigation.SortMenu | frontend-next/lib/navigation.ts:23 | the menu is a permutation of the items, ordered by effective order, stable among equal orders |
| Navigation.FalsyOrderSortsLast | frontend-next/lib/navigation.ts:23 | an item with a missing or zero order is followed only by items whose effective order is at least 999 |
| Navigation.MainTableInOrder | frontend-next/lib/navigation.ts:18-23 | the main table is already in menu order |
| Navigation.MainNavigation | frontend-next/lib/navigation.ts:17-24 | the main menu is Products, Services, Labs, About with their paths, in that order |
| Navigation.FooterNavigation | frontend-next/lib/navigation.ts:34-61 | three sections (Products, Services, Company) with three links each, none with an order |
| Navigation.HomeActiveOnlyAtRoot | frontend-next/components/layout/MobileNav.tsx:21-22 | the Home tab is highlighted on `/` only |
| Navigation.IsActive | frontend-next/components/layout/MobileNav.tsx:21-22 | a tab is highlighted when the path equals its href, or, for any href but `/`, starts with it |
| Navigation.PrefixRule | frontend-next/components/layout/MobileNav.tsx:21-22 | any other tab is highlighted exactly when the path starts with its href |
| Navigation.PrefixIsCharacterLevel | frontend-next/components/layout/MobileNav.tsx:22 | the prefix test ignores segment boundaries: `/productsX` highlights Products |
| Navigation.ActiveShape | frontend-next/components/layout/MobileNav.tsx:6-11 | an active Home tab forces the path `/`; any other active tab fixes the path's second character |
| Navigation.AtMostOneActive | frontend-next/components/layout/MobileNav.tsx:6-22 | no path highlights two tabs |
| Navigation.ActiveTab | frontend-next/components/layout/MobileNav.tsx:20-22 | the highlighted tab, when there is one, is the only active tab; when there is none, no tab is active |
| Navigation.FirstActive | frontend-next/components/layout/MobileNav.tsx:20-22 | the first active tab at or after an index, or none |
| Content.SlugPatterns | backend/models.py:52 | the backend and front-end slug patterns each accept exactly the non-empty strings of `a-z`, `0-9` and `-` |
| Content.ColorPatterns | backend/models.py:78 | both accent-colour patterns accept exactly `#` followed by six hexadecimal digits |
| Content.BoundsMirror | frontend-next/lib/schemas.ts:60-117 | every Zod length bound equals its Pydantic counterpart, and every lower bound is at most 1 |
| Content.LengthChecks | frontend-next/lib/schemas.ts:60-62 | the two length counts agree inside the Basic Multilingual Plane, and elsewhere Zod's is the stricter |
| Content.Within | backend/models.py:72 | Pydantic's `min_length`/`max_length`: the number of code points is within the bounds |
| Content.WithinUtf16 | frontend-next/lib/schemas.ts:60 | Zod's `.min()`/`.max()`: the number of UTF-16 code units is within the bounds |
| Content.AstralNameRejected | backend/models.py:72 | a name of 60 emoji passes Pydantic's limit of 100 and fails Zod's |
| Content.EnumsMirror | frontend-next/lib/schemas.ts:8-33 | each Zod enumeration lists exactly the values of its Pydantic enumeration |
| Content.EnumMembership | frontend-next/lib/schemas.ts:8-33 | a value is in a Zod list exactly when the backend enumeration accepts it |
| Content.Emit | backend/models.py:56 | a field holding `None` is sent as `null`, any other value as itself |
| Content.Admits | frontend-next/lib/schemas.ts:43 | `.optional()` refuses `null` and lets a missing or present value through; `.nullable()` and `z.coerce.date()` also take `null` |
| Content.Modifiers | frontend-next/lib/schemas.ts:43 | the corrected schema leaves no plain `.optional()`, and otherwise keeps the written modifiers |
| Content.EmittedOptionalAdmitted | frontend-next/lib/schemas.ts:43 | with the corrected modifiers, every optional field the backend emits gets through |
| Content.ModifiersAsWritten | frontend-next/lib/schemas.ts:37-149 | plain `.optional()` on every modelled optional field except `duration` (`.optional().nullable()`) and the coerced dates `start_date`, `end_date` and access `expires_at` |
| Content.EmittedNullRefused | frontend-next/lib/schemas.ts:43 | as written, a `None` in a plain `.optional()` field arrives as `null` and is refused |
| Content.BackendLabVisibility | backend/models.py:114 | a lab's visibility validates exactly when it is missing or `labs`, and is then `labs` |
| Content.BackendBaseValid | backend/models.py:48-56 | `ContentBase`: the slug matches `^[a-z0-9-]+$` and the visibility is a `Visibility` value |
| Content.FrontendBaseValid | frontend-next/lib/schemas.ts:37-44 | `ContentBaseSchema`: slug pattern, visibility list, and `order` through its modifier |
| Content.BackendProductValid | backend/models.py:71-85 | `Product`: base checks, the name, tagline and short-description bounds, a `Status` value and the accent-colour pattern |
| Content.FrontendProductValid | frontend-next/lib/schemas.ts:59-73 | `ProductSchema` on the emitted product, with UTF-16 length bounds |
| Content.BackendServiceValid | backend/models.py:88-97 | `Service`: base checks, name and summary bounds, an `EngagementType` value |
| Content.FrontendServiceValid | frontend-next/lib/schemas.ts:77-86 | `ServiceSchema` on the emitted service, `duration` through its modifier |
| Content.BackendLabValid | backend/models.py:106-115 | `Lab`: slug pattern, visibility missing or `labs`, name bound, a `LabStatus` value |
| Content.FrontendLabValid | frontend-next/lib/schemas.ts:90-106 | `LabSchema` on the emitted lab: visibility `labs`, and every optional field, `metrics` and each metric's `actual` through its modifier |
| Content.BackendPageValid | backend/models.py:119-128 | `Page`: base checks, title bound, SEO description bound |
| Content.FrontendPageValid | frontend-next/lib/schemas.ts:110-120 | `PageSchema` on the emitted page and its SEO block |
| Content.FrontendUserValid | frontend-next/lib/schemas.ts:141-149 | `UserSchema` on the emitted user: role, `picture` and `organization_slug` |
| Content.FrontendAccessValid | frontend-next/lib/schemas.ts:130-137 | `ClientAccessSchema` on the emitted record: `organization_id` and `expires_at` through their modifiers |
| Content.EmittedLabVisibility | backend/models.py:114 | the visibility the backend sends for a validated lab, `labs` when the document has none |
| Content.BaseMirror | frontend-next/lib/schemas.ts:37-44 | with the corrected modifiers, `ContentBaseSchema` accepts what `ContentBase` accepts |
| Content.ProductMirror | frontend-next/lib/schemas.ts:59-73 | the corrected product schema accepts nothing the backend refuses, and everything it serves whose bounded texts stay in the Basic Multilingual Plane |
| Content.ServiceMirror | frontend-next/lib/schemas.ts:77-86 | the same mirror for services |
| Content.LabMirror | frontend-next/lib/schemas.ts:90-106 | the same mirror for labs, metrics included; every accepted lab has visibility `labs` |
| Content.LabWithoutMeasurementRefused | frontend-next/lib/schemas.ts:93-105 | as written, a lab without `metrics`, or with a metric whose `actual` is not yet known, is refused |
| Content.PageMirror | frontend-next/lib/schemas.ts:110-120 | the same mirror for pages and their SEO block |
| Content.UserMirror | frontend-next/lib/schemas.ts:141-149 | every user the backend returns parses with the corrected schema |
| Content.AccessMirror | frontend-next/lib/schemas.ts:130-137 | every access record the backend returns parses with the corrected schema |
| Content.DefaultAccessRefused | frontend-next/lib/schemas.ts:132 | as written, the default record `get_client_access` returns is refused, because its `organization_id` is `null` |
| Content.SeededAboutTexts | backend/models.py:125-128 | the seeded `about` page's slug, title and SEO description are valid and free of astral characters |
| Content.SeededPageServed | backend/models.py:119-128 | the backend validates the seeded `about` page, and the corrected schema parses it |
| Content.SeededPageRefused | frontend-next/lib/schemas.ts:43 | the schema as written refuses the seeded `about` page, because its missing `order` arrives as `null` |
| Content.UserWithoutPictureRefused | frontend-next/lib/schemas.ts:145 | as written, a user without a picture is refused |
| Content.RedirectFromDoc | backend/models.py:150-155 | `permanent` defaults to true, and a given value is kept |
| Content.UserRole | backend/models.py:166 | a missing role is `client`; a given role validates exactly when it is a `Role` value, and then is that value |

## Left out

- Network, database and process boundaries are not modelled. Fetches,
  MongoDB calls, Firebase verification, `uuid4` and the clock are
  parameters. The database's `limit` and the `to_list(length=...)` caps are
  not modelled, and neither is the order in which MongoDB returns documents.
- Concurrency is not modelled. Two concurrent proxy requests may both
  refresh the cache, and `create_session` reads and then writes users
  without a transaction.
- The Next.js `matcher` config (`proxy.ts` lines 63-74) is not modelled. It
  is a router-level regex that runs before `proxy`. The model follows the
  checks inside `proxy` itself.
- Redirects.Resolve: setting `url.pathname` on a WHATWG URL normalises the
  path (percent-encoding, a leading `/`). The model copies the `to` string
  verbatim.
- Redirects.FetchRedirects: the wire rules are taken as well-formed. A rule
  missing `permanent` (the backend's raw documents carry no default) is
  treated as temporary by `redirect.permanent ? 308 : 307`, and the model
  cannot represent such a rule. A non-array `redirects` field is not
  modelled.
- Auth.CurrentUser: `expires_at` stored as an ISO string is parsed by
  `datetime.fromisoformat`. The model starts from the parsed instant.
- Auth.Establish: the `firebase_uid` and `updated_at` fields written to the
  documents are not modelled. Neither is the (improbable) collision of a new
  `user_id` with an existing one. `existing` is a parameter constrained to be
  a result of `find_one({"email": email})`; when two stored users share an
  email, either may be given.
- Auth.CreateSession: Firebase verification is a parameter. The shipped
  `initialize_firebase` (`backend/firebase_config.py`) never returns an app,
  so as shipped every token is rejected; only that consequence is stated.
- Auth.CookieSecure: `lower()` is modelled for ASCII letters only.
  `COOKIE_SAMESITE` (stripped and lower-cased) and `COOKIE_DOMAIN` (an empty
  value becomes `None`) are normalised by the program, and the cookie's
  `samesite` and `domain` attributes are not modelled.
- Catalog.Validates: a stored product document carries only the fields the
  listing reads. Documents missing `slug`, `id`, `tagline`, `short_description`,
  `long_description`, `accent_color` or the timestamps also fail
  `Product(**p)` with 500; the model cannot represent such documents.
  `list_services` and `list_labs` validate their documents the same way,
  which is not modelled.
- Catalog.KeyOf: a product document holding `"order": null` makes Python
  compare `None` with an integer and fail. The model's optional order stands
  for a missing field only.
- Navigation.EffectiveOrder: JavaScript numbers are integers here; `NaN` and
  fractional orders are not modelled.
- Content: the formats Zod and Pydantic check beyond the fields above are
  not modelled:
  - `uuid()`, `email()` and the coercion of dates and datetimes;
  - MDX bodies and other unconstrained strings;
  - `extra="ignore"`;
  - Pydantic's coercion of non-string input.

  `LabMetric.name` and `target`, the `scope` and `permissions` of a client
  access record and `granted_at` are not checked beyond their types.
  `ClientAccessSchema` is declared, but the API client
  (`frontend-next/lib/api.ts`) parses no response with it.
- Pages and components under `app/` are not modelled, beyond the
  highlighting rule of `MobileNav.tsx`. Neither are Firebase set-up and
  client code.

## Findings

| source | as written | input that shows it | evidently intended | confidence | as-written member | corrected member |
|---|---|---|---|---|---|---|
| backend/server.py:161-167 | the display name is computed as `name or email.split("@")[0]` before the claims are checked, so claims without `email` and `name` call `split` on `None` | a verified token whose claims hold a `uid` but neither `email` nor `name`: unhandled `AttributeError`, HTTP 500. Reachable once Firebase credentials are configured so that `verify_firebase_token` returns claims; as shipped it returns none (`Auth.UnconfiguredVerifierRejectsAll`) | reject the claims with 400 "Invalid token claims", as the check on line 166 means to | high, not executed | Auth.MissingEmailCrashes | Auth.CreateSession |
| frontend-next/lib/schemas.ts:43 | optional fields use `.optional()`, which refuses `null`, while FastAPI sends a `None` field as `null` (also lines 93, 99, 103, 105, 111-113, 119, 132, 145, 147) | the seeded `about` page (no `order`, no `og_image`) fails `PageSchema.parse`; so does a user without a `picture` | the front end accepts every response the backend produces, as the `.optional().nullable()` fields of `ProductSchema` already do | high, not executed | Content.SeededPageRefused | Content.EmittedOptionalAdmitted |
| backend/server.py:282-292 | the docstring says the endpoint returns only public products unless the caller is authenticated, but the handler takes no credentials and copies any given `visibility` into the query | `GET /api/content/products?visibility=protected` without a cookie or `Authorization` header lists the protected products | ignore the visibility filter of an unauthenticated caller and list public products only | medium, not executed | Catalog.ProtectedListedAnonymously | Catalog.AnonymousListsOnlyPublic |

=== FILE: access.dfy ===
/**
 * `GET /api/access/{user_id}` (`server.py`): who may read a client's access
 * record, and the record returned when none is stored.
 */
module Access {
  import opened Base
  import Enums
  import Auth

  datatype Permission = Read | Comment | Edit

  /** `ClientAccessScope`: the product, service and lab ids a client may see. */
  datatype Scope = Scope(products: seq<string>, services: seq<string>, labs: seq<string>)

  /** `ClientAccess`: the stored record. */
  datatype ClientAccess = ClientAccess(userId: string, organizationId: Option<string>, scope: Scope,
                                       permissions: seq<Permission>, grantedAt: int, expiresAt: Option<int>)

  /** The requester may read the target's record: it is their own, or they are an admin. */
  predicate MayRead(requester: Auth.User, target: string) {
    requester.userId == target || requester.role == Enums.Admin
  }

  /** The record returned when none is stored: empty scopes, read-only, granted now. */
  function DefaultAccess(target: string, now: int): (a: ClientAccess)
    ensures a.userId == target && a.grantedAt == now
    ensures a.scope.products == [] && a.scope.services == [] && a.scope.labs == []
    ensures a.permissions == [Read]
    ensures a.organizationId.None? && a.expiresAt.None?
  {
    ClientAccess(target, None, Scope([], [], []), [Read], now, None)
  }

  /**
   * `get_client_access`: `auth` is the outcome of `require_auth` and `stored`
   * the record found for `target`, if any.
   */
  function GetClientAccess(auth: Response<Auth.User>, target: string, stored: Option<ClientAccess>, now: int): (r: Response<ClientAccess>)
    ensures auth.Raise? ==> r == Raise(auth.status, auth.detail)
    ensures auth.Ok? && !MayRead(auth.value, target) ==> r == Raise(403, "Forbidden")
    ensures r.Ok? <==> auth.Ok? && MayRead(auth.value, target)
    ensures r.Ok? ==> r.value == (if stored.Some? then stored.value else DefaultAccess(target, now))
  {
    match auth
    case Raise(status, detail) => Raise(status, detail)
    case Ok(user) =>
      if !MayRead(user, target) then Raise(403, "Forbidden")
      else if stored.None? then Ok(DefaultAccess(target, now))
      else Ok(stored.value)
  }

  /** A non-admin is refused every record but their own, whatever is stored. */
  lemma ClientsSeeOnlyTheirOwn(user: Auth.User, target: string, stored: Option<ClientAccess>, now: int)
    requires user.role != Enums.Admin && target != user.userId
    ensures GetClientAccess(Ok(user), target, stored, now) == Raise(403, "Forbidden")
  {
  }

  /** An unauthenticated request gets 401 from `require_auth`, before any ownership check. */
  lemma UnauthenticatedGets401(users: Auth.Users, sessions: Auth.Sessions, cookie: Option<string>,
                               authorization: Option<string>, now: int, target: string, stored: Option<ClientAccess>)
    requires Auth.CurrentUser(users, sessions, cookie, authorization, now).user.None?
    ensures var r := GetClientAccess(Auth.RequireAuth(users, sessions, cookie, authorization, now), target, stored, now);
            r.Raise? && r.status == 401
  {
  }
}

=== FILE: auth.dfy ===
/**
 * The authentication rules of the backend (`server.py`): which token a
 * request carries, when a stored session is still valid, how a session is
 * created from a verified Firebase ID token, how logout ends it, and how the
 * `COOKIE_SECURE` setting is read.
 *
 * The collections `users` and `user_sessions` are maps keyed by `user_id` and
 * `session_token`; the clock, the random hex strings of `uuid4()` and the
 * Firebase verification call are parameters. Instants are integer
 * microseconds since the Unix epoch, the resolution of Python's `datetime`.
 */
module Auth {
  import opened Base
  import Text
  import Enums

  /** One second, in microseconds. */
  const Second: int := 1000000

  /** `timedelta(days=7)`: how long a session lives. */
  const SessionLifetime: int := 7 * 24 * 60 * 60 * Second

  /** The session cookie's `max_age`, in seconds. */
  const CookieMaxAge: int := 7 * 24 * 60 * 60

  const BearerPrefix: string := "Bearer "

  /** A stored `expires_at`: timezone-aware (held as its UTC instant) or naive. */
  datatype Timestamp = Aware(utc: int) | Naive(wall: int)

  /** The instant a stored timestamp denotes: a naive one is read as UTC. */
  function ToUtc(t: Timestamp): (instant: int) {
    match t
    case Aware(u) => u
    case Naive(w) => w
  }

  /** The fields of the `User` model. */
  datatype User = User(userId: string, email: string, name: string, picture: Option<string>,
                       role: Enums.Role, organizationSlug: Option<string>, createdAt: int)

  /** A document of `user_sessions`. */
  datatype Session = Session(userId: string, token: string, expiresAt: Timestamp, createdAt: int)

  type Users = map<string, User>

  /** Every user is stored under its own `user_id`. */
  predicate WellKeyed(users: Users) {
    forall id | id in users :: users[id].userId == id
  }
  type Sessions = map<string, Session>

  // ---------------------------------------------------------------------------
  // Configuration
  // ---------------------------------------------------------------------------

  /**
   * `COOKIE_SECURE`: the environment value (default `"true"` when unset),
   * stripped and lower-cased, is one of `1`, `true`, `yes`.
   */
  function CookieSecure(env: Option<string>): (secure: bool)
    ensures env.None? ==> secure
  {
    DefaultIsSecure();
    Text.LowerAscii(Text.Strip(ValueOr(env, "true"))) in {"1", "true", "yes"}
  }

  lemma DefaultIsSecure()
    ensures Text.LowerAscii(Text.Strip("true")) == "true"
  {
    Text.StripLeftKeeps("true");
    assert Text.StripRight("true") == "true";
    var l := Text.LowerAscii("true");
    assert l[0] == 't' && l[1] == 'r' && l[2] == 'u' && l[3] == 'e';
  }

  /**
   * The flag is read exactly from the value between the surrounding white
   * space: `" TRUE\n"` enables it, and so on.
   */
  lemma CookieSecureFramed(w1: string, v: string, w2: string)
    requires Text.AllSpace(w1) && Text.AllSpace(w2)
    requires v != [] ==> !Text.IsSpace(v[0]) && !Text.IsSpace(v[|v| - 1])
    ensures CookieSecure(Some(w1 + v + w2)) <==> Text.LowerAscii(v) in {"1", "true", "yes"}
  {
    Text.StripFramed(w1, v, w2);
  }

  /** A set but empty variable disables the flag; only an unset one defaults to secure. */
  lemma CookieSecureEmptyIsFalse()
    ensures !CookieSecure(Some(""))
  {
    assert Text.Strip("") == "";
  }

  // ---------------------------------------------------------------------------
  // Token selection and session validity
  // ---------------------------------------------------------------------------

  /**
   * `session_token or authorization.replace("Bearer ", "")`, kept only when
   * truthy: the token `get_current_user` and `logout` act on.
   */
  function SelectToken(cookie: Option<string>, authorization: Option<string>): (t: Option<string>)
    ensures t.Some? ==> t.value != ""
    ensures Truthy(cookie) ==> t == cookie
    ensures !Truthy(cookie) && t.Some? ==>
              Truthy(authorization) && t.value == Text.RemoveAll(authorization.value, BearerPrefix)
    ensures !Truthy(cookie) && Truthy(authorization) && Text.RemoveAll(authorization.value, BearerPrefix) != "" ==> t.Some?
  {
    if Truthy(cookie) then cookie
    else if Truthy(authorization) then
      var stripped := Text.RemoveAll(authorization.value, BearerPrefix);
      if stripped != "" then Some(stripped) else None
    else None
  }

  /**
   * Without a cookie, `Authorization: Bearer <tok>` yields `<tok>` when `tok` is
   * non-empty and contains no further `"Bearer "`.
   */
  lemma BearerHeaderToken(cookie: Option<string>, tok: string)
    requires !Truthy(cookie)
    requires tok != "" && !Text.Contains(tok, BearerPrefix)
    ensures SelectToken(cookie, Some(BearerPrefix + tok)) == Some(tok)
  {
    Text.RemoveAllLeading(BearerPrefix, tok);
    Text.RemoveAllAbsent(tok, BearerPrefix);
  }

  /** `expires_at < now`: a session expiring exactly now is still accepted. */
  predicate Expired(expiresAt: Timestamp, now: int) {
    ToUtc(expiresAt) < now
  }

  /** The user a request is made by, and the sessions left after expired ones are deleted. */
  datatype Lookup = Lookup(user: Option<User>, sessions: Sessions)

  /** `get_current_user`: the session lookup, the expiry check and its deletion, then the user lookup. */
  function CurrentUser(users: Users, sessions: Sessions, cookie: Option<string>,
                       authorization: Option<string>, now: int): (r: Lookup)
    ensures var tok := SelectToken(cookie, authorization);
            r.user.Some? <==> (&& tok.Some? && tok.value in sessions
                               && !Expired(sessions[tok.value].expiresAt, now)
                               && sessions[tok.value].userId in users)
    ensures var tok := SelectToken(cookie, authorization);
            r.user.Some? ==> r.user.value == users[sessions[tok.value].userId]
    ensures var tok := SelectToken(cookie, authorization);
            if tok.Some? && tok.value in sessions && Expired(sessions[tok.value].expiresAt, now)
            then r.sessions == sessions - {tok.value}
            else r.sessions == sessions
  {
    match SelectToken(cookie, authorization)
    case None => Lookup(None, sessions)
    case Some(tok) =>
      if tok !in sessions then Lookup(None, sessions)
      else if Expired(sessions[tok].expiresAt, now) then Lookup(None, sessions - {tok})
      else if sessions[tok].userId in users then Lookup(Some(users[sessions[tok].userId]), sessions)
      else Lookup(None, sessions)
  }

  /** `require_auth`: the current user, or 401. */
  function RequireAuth(users: Users, sessions: Sessions, cookie: Option<string>,
                       authorization: Option<string>, now: int): (r: Response<User>)
    ensures r.Raise? <==> CurrentUser(users, sessions, cookie, authorization, now).user.None?
    ensures r.Raise? ==> r.status == 401
    ensures r.Ok? ==> Some(r.value) == CurrentUser(users, sessions, cookie, authorization, now).user
  {
    match CurrentUser(users, sessions, cookie, authorization, now).user
    case None => Raise(401, "Not authenticated")
    case Some(u) => Ok(u)
  }

  /** `logout`: the session the request's token names is deleted; the others stay. */
  function Logout(sessions: Sessions, cookie: Option<string>, authorization: Option<string>): (r: Sessions)
    ensures var tok := SelectToken(cookie, authorization);
            && (tok.Some? ==> tok.value !in r)
            && (forall k | k in r :: k in sessions && r[k] == sessions[k])
            && (forall k | k in sessions && (tok.None? || k != tok.value) :: k in r)
  {
    match SelectToken(cookie, authorization)
    case None => sessions
    case Some(tok) => sessions - {tok}
  }

  /** After logout, the same credentials no longer authenticate. */
  lemma LogoutEndsSession(users: Users, sessions: Sessions, cookie: Option<string>,
                          authorization: Option<string>, now: int)
    ensures CurrentUser(users, Logout(sessions, cookie, authorization), cookie, authorization, now).user.None?
  {
  }

  // ---------------------------------------------------------------------------
  // Session creation
  // ---------------------------------------------------------------------------

  /** The claims of a verified Firebase ID token that `create_session` reads. */
  datatype Claims = Claims(uid: Option<string>, email: Option<string>, name: Option<string>, picture: Option<string>)

  /** The `Set-Cookie` attributes of the session cookie. */
  datatype Cookie = Cookie(key: string, value: string, httpOnly: bool, secure: bool, path: string, maxAge: int)

  /** A created session: the user returned, the new session, the cookie, and both collections afterwards. */
  datatype Created = Created(user: User, session: Session, cookie: Cookie, users: Users, sessions: Sessions)

  /** `s.split("@")[0]`: the part of `s` before its first `@`, or all of `s`. */
  function BeforeAt(s: string): (r: string)
    ensures '@' !in r
    ensures r == s || (|r| < |s| && s[..|r| + 1] == r + "@")
  {
    if s == [] then []
    else if s[0] == '@' then []
    else
      var r := [s[0]] + BeforeAt(s[1..]);
      assert r == s || s[..|r| + 1] == [s[0]] + s[1..][..|r|];
      r
  }

  /** The header guard of `create_session`: present, non-empty, and starting with `"Bearer "`. */
  predicate ValidAuthHeader(header: Option<string>) {
    Truthy(header) && Text.StartsWith(header.value, BearerPrefix)
  }

  /** The claim check of `create_session`: truthy `uid` and `email`. */
  predicate ValidClaims(c: Claims) {
    Truthy(c.uid) && Truthy(c.email)
  }

  /** No two stored users share an email. */
  predicate UniqueEmails(users: Users) {
    forall a, b | a in users && b in users && users[a].email == users[b].email :: a == b
  }

  /**
   * `existing` is what `users.find_one({"email": email})` returns: the id of a
   * stored user with that email, or nothing when no stored user has it.
   */
  predicate FoundByEmail(existing: Option<string>, users: Users, email: string) {
    && (existing.Some? ==> existing.value in users && users[existing.value].email == email)
    && (existing.None? ==> forall id | id in users :: users[id].email != email)
  }

  /** For claims that pass the claim check, `existing` is the lookup of their email. */
  predicate LookedUp(existing: Option<string>, users: Users, c: Claims) {
    ValidClaims(c) ==> FoundByEmail(existing, users, c.email.value)
  }

  /** `existing` is the lookup of the email in whatever claims the header's token verifies to. */
  predicate LookedUpFor(header: Option<string>, verify: string -> Option<Claims>, existing: Option<string>, users: Users) {
    ValidAuthHeader(header) ==>
      var v := verify(Text.RemoveAll(header.value, BearerPrefix));
      v.Some? ==> LookedUp(existing, users, v.value)
  }

  /**
   * The part of `create_session` after the claims are known to be valid: the
   * user upsert, the seven-day session and its cookie. `existing` is the
   * `user_id` found for the email, if any; `userHex` and `sessionHex` are the
   * `uuid4().hex` strings. Nothing else in either collection changes, and an
   * email stays attached to at most one user.
   */
  function Establish(c: Claims, name: string, existing: Option<string>, users: Users, sessions: Sessions,
                     now: int, userHex: string, sessionHex: string, secure: bool): (r: Created)
    requires ValidClaims(c)
    requires WellKeyed(users) && FoundByEmail(existing, users, c.email.value)
    requires |userHex| == 32
    ensures r.session.token in r.sessions && r.sessions[r.session.token] == r.session
    ensures r.session.userId == r.user.userId && r.user.userId in r.users && r.users[r.user.userId] == r.user
    ensures WellKeyed(r.users)
    ensures r.user.email == c.email.value && r.user.name == name && r.user.picture == c.picture
    ensures ToUtc(r.session.expiresAt) == now + SessionLifetime
    ensures r.cookie.key == "session_token" && r.cookie.value == r.session.token
    ensures r.cookie.httpOnly && r.cookie.secure == secure && r.cookie.path == "/"
    ensures r.cookie.maxAge * Second == SessionLifetime
    ensures existing.None? ==> r.user.role == Enums.Client && r.user.organizationSlug.None?
    ensures existing.None? ==> r.user.userId == "user_" + userHex[..12] && r.user.createdAt == now
    ensures existing.Some? ==> r.user.userId == existing.value && r.user.role == users[existing.value].role
    ensures existing.Some? ==> r.user == users[existing.value].(name := name, picture := c.picture)
    ensures r.session.token == "sess_" + sessionHex && r.session.createdAt == now
    ensures r.users.Keys == users.Keys + {r.user.userId}
    ensures forall id | id in users && id != r.user.userId :: r.users[id] == users[id]
    ensures r.sessions.Keys == sessions.Keys + {r.session.token}
    ensures forall t | t in sessions && t != r.session.token :: r.sessions[t] == sessions[t]
    ensures UniqueEmails(users) ==> UniqueEmails(r.users)
  {
    var user :=
      match existing
      case Some(id) => users[id].(name := name, picture := c.picture)
      case None => User("user_" + userHex[..12], c.email.value, name, c.picture, Enums.Client, None, now);
    var token := "sess_" + sessionHex;
    var session := Session(user.userId, token, Aware(now + SessionLifetime), now);
    Created(user, session, Cookie("session_token", token, true, secure, "/", CookieMaxAge),
            users[user.userId := user], sessions[token := session])
  }

  /**
   * Signing in again with the same email finds the account the first sign-in
   * created or updated, so no second account is made for it.
   */
  lemma SecondSignInReusesAccount(c: Claims, name: string, existing: Option<string>, users: Users, sessions: Sessions,
                                  now: int, userHex: string, sessionHex: string, secure: bool, again: Option<string>)
    requires ValidClaims(c)
    requires WellKeyed(users) && UniqueEmails(users) && FoundByEmail(existing, users, c.email.value)
    requires |userHex| == 32
    requires var r := Establish(c, name, existing, users, sessions, now, userHex, sessionHex, secure);
             FoundByEmail(again, r.users, c.email.value)
    ensures again == Some(Establish(c, name, existing, users, sessions, now, userHex, sessionHex, secure).user.userId)
  {
  }

  /**
   * The claim check and what follows it: invalid claims are answered with 400,
   * valid ones establish the session.
   */
  function Admit(c: Claims, name: string, existing: Option<string>, users: Users, sessions: Sessions,
                 now: int, userHex: string, sessionHex: string, secure: bool): (r: Response<Created>)
    requires WellKeyed(users) && LookedUp(existing, users, c)
    requires |userHex| == 32
    ensures r.Raise? <==> !ValidClaims(c)
    ensures r.Raise? ==> r == Raise(400, "Invalid token claims")
    ensures r.Ok? ==> r.value.session.token in r.value.sessions && r.value.user.userId in r.value.users
    ensures r.Ok? ==> ValidClaims(c) && r.value == Establish(c, name, existing, users, sessions, now, userHex, sessionHex, secure)
  {
    if !ValidClaims(c) then Raise(400, "Invalid token claims")
    else Ok(Establish(c, name, existing, users, sessions, now, userHex, sessionHex, secure))
  }

  /**
   * `create_session` as written: the display name is derived from the email
   * before the claims are checked, so claims without a `name` and without an
   * `email` make `email.split` fail on `None`, an unhandled error (500).
   */
  function CreateSessionAsWritten(header: Option<string>, verify: string -> Option<Claims>,
                                  existing: Option<string>, users: Users, sessions: Sessions,
                                  now: int, userHex: string, sessionHex: string, secure: bool): (r: Response<Created>)
    requires WellKeyed(users) && LookedUpFor(header, verify, existing, users)
    requires |userHex| == 32
    ensures r.Raise? ==> (r.status == 400 || r.status == 401 || r.status == 500)
    ensures !ValidAuthHeader(header) ==> r.Raise? && r.status == 400
    ensures r.Raise? && r.status == 500 <==>
              && ValidAuthHeader(header)
              && var v := verify(Text.RemoveAll(header.value, BearerPrefix));
                 v.Some? && v.value.email.None? && !Truthy(v.value.name)
  {
    if !ValidAuthHeader(header) then Raise(400, "Missing or invalid Authorization header")
    else
      match verify(Text.RemoveAll(header.value, BearerPrefix))
      case None => Raise(401, "Invalid or expired Firebase token")
      case Some(c) =>
        if !Truthy(c.name) && c.email.None? then Raise(500, "AttributeError: 'NoneType' object has no attribute 'split'")
        else
          var name := if Truthy(c.name) then c.name.value else BeforeAt(c.email.value);
          Admit(c, name, existing, users, sessions, now, userHex, sessionHex, secure)
  }

  /** The display name: the `name` claim, or the local part of the email. */
  function DisplayName(c: Claims): (name: string)
    requires ValidClaims(c)
    ensures Truthy(c.name) ==> name == c.name.value
    ensures !Truthy(c.name) ==> '@' !in name
    ensures !Truthy(c.name) ==> c.email.value == name || Text.StartsWith(c.email.value, name + "@")
  {
    if Truthy(c.name) then c.name.value else BeforeAt(c.email.value)
  }

  /**
   * `create_session` with the claim check before the name is derived: every
   * rejection is the 400 or 401 the handler means to raise.
   */
  function CreateSession(header: Option<string>, verify: string -> Option<Claims>,
                         existing: Option<string>, users: Users, sessions: Sessions,
                         now: int, userHex: string, sessionHex: string, secure: bool): (r: Response<Created>)
    requires WellKeyed(users) && LookedUpFor(header, verify, existing, users)
    requires |userHex| == 32
    ensures r.Raise? ==> r.status == 400 || r.status == 401
    ensures r.Raise? && r.status == 400 <==>
              !ValidAuthHeader(header)
              || (var v := verify(Text.RemoveAll(header.value, BearerPrefix)); v.Some? && !ValidClaims(v.value))
    ensures r.Raise? && r.status == 401 <==>
              ValidAuthHeader(header) && verify(Text.RemoveAll(header.value, BearerPrefix)).None?
    ensures r.Ok? ==>
              && ValidAuthHeader(header)
              && var v := verify(Text.RemoveAll(header.value, BearerPrefix));
                 && v.Some? && ValidClaims(v.value)
                 && r.value == Establish(v.value, DisplayName(v.value), existing, users, sessions,
                                         now, userHex, sessionHex, secure)
  {
    if !ValidAuthHeader(header) then Raise(400, "Missing or invalid Authorization header")
    else
      match verify(Text.RemoveAll(header.value, BearerPrefix))
      case None => Raise(401, "Invalid or expired Firebase token")
      case Some(c) =>
        if !ValidClaims(c) then Raise(400, "Invalid token claims")
        else Admit(c, DisplayName(c), existing, users, sessions, now, userHex, sessionHex, secure)
  }

  /**
   * The two versions differ only where the written one crashes: whenever it
   * does not raise 500, both return the same.
   */
  lemma CreateSessionFixIsConservative(header: Option<string>, verify: string -> Option<Claims>,
                                       existing: Option<string>, users: Users, sessions: Sessions,
                                       now: int, userHex: string, sessionHex: string, secure: bool)
    requires WellKeyed(users) && LookedUpFor(header, verify, existing, users)
    requires |userHex| == 32
    ensures var w := CreateSessionAsWritten(header, verify, existing, users, sessions, now, userHex, sessionHex, secure);
            !(w.Raise? && w.status == 500) ==>
              w == CreateSession(header, verify, existing, users, sessions, now, userHex, sessionHex, secure)
  {
  }

  /**
   * The input that shows the defect: a verified token with a `uid` but
   * neither `email` nor `name` crashes the written handler (500), while the
   * corrected one answers 400 "Invalid token claims".
   */
  lemma MissingEmailCrashes(header: Option<string>, verify: string -> Option<Claims>,
                            existing: Option<string>, users: Users, sessions: Sessions,
                            now: int, userHex: string, sessionHex: string, secure: bool)
    requires WellKeyed(users) && LookedUpFor(header, verify, existing, users)
    requires |userHex| == 32
    requires ValidAuthHeader(header)
    requires var c := verify(Text.RemoveAll(header.value, BearerPrefix)); c.Some? && c.value.email.None? && !Truthy(c.value.name)
    ensures var w := CreateSessionAsWritten(header, verify, existing, users, sessions, now, userHex, sessionHex, secure);
            w.Raise? && w.status == 500
    ensures CreateSession(header, verify, existing, users, sessions, now, userHex, sessionHex, secure)
            == Raise(400, "Invalid token claims")
  {
  }

  /** A concrete instance: the header `Bearer tok` verified to claims holding only a `uid`. */
  lemma MissingEmailExample()
    ensures var verify := (t: string) => Some(Claims(Some("uid-1"), None, None, None));
            var w := CreateSessionAsWritten(Some("Bearer tok"), verify, None, map[], map[], 0, seq(32, i => '0'), "", true);
            w.Raise? && w.status == 500
  {
    assert ValidAuthHeader(Some("Bearer tok")) by {
      assert "Bearer tok"[..7] == BearerPrefix;
    }
  }

  /**
   * `verify_firebase_token` as shipped: `initialize_firebase` returns nothing
   * on every path, so the verifier gives up before looking at the token and
   * every well-formed header is answered 401, by either version of the handler.
   */
  lemma UnconfiguredVerifierRejectsAll(header: Option<string>, existing: Option<string>, users: Users, sessions: Sessions,
                                       now: int, userHex: string, sessionHex: string, secure: bool)
    requires WellKeyed(users) && |userHex| == 32
    requires ValidAuthHeader(header)
    ensures var verify := (t: string) => None;
            && CreateSessionAsWritten(header, verify, existing, users, sessions, now, userHex, sessionHex, secure)
               == Raise(401, "Invalid or expired Firebase token")
            && CreateSession(header, verify, existing, users, sessions, now, userHex, sessionHex, secure)
               == Raise(401, "Invalid or expired Firebase token")
  {
  }

  /**
   * A new session authenticates its cookie for exactly seven days: at any
   * time up to and including its expiry the cookie yields the user, and after
   * that the session is rejected and deleted.
   */
  lemma NewSessionLastsSevenDays(c: Claims, name: string, existing: Option<string>, users: Users, sessions: Sessions,
                                 now: int, userHex: string, sessionHex: string, secure: bool,
                                 authorization: Option<string>, t: int)
    requires ValidClaims(c)
    requires WellKeyed(users) && FoundByEmail(existing, users, c.email.value)
    requires |userHex| == 32
    ensures var r := Establish(c, name, existing, users, sessions, now, userHex, sessionHex, secure);
            var l := CurrentUser(r.users, r.sessions, Some(r.cookie.value), authorization, t);
            && (t <= now + r.cookie.maxAge * Second ==> l.user == Some(r.user) && l.sessions == r.sessions)
            && (t > now + r.cookie.maxAge * Second ==> l.user.None? && r.cookie.value !in l.sessions)
  {
  }
}

=== FILE: base.dfy ===
/**
 * Shared wrapper types: an optional value, and the outcome of a FastAPI
 * handler, which either returns a value or raises an `HTTPException`.
 */
module Base {

  datatype Option<T> = None | Some(value: T)

  /** `o ?? default` in TypeScript, `default` when a Pydantic field is `None`. */
  function ValueOr<T>(o: Option<T>, default: T): (v: T) {
    if o.Some? then o.value else default
  }

  /** A handler's outcome: a value, or an HTTP error with its status code and detail text. */
  datatype Response<T> = Ok(value: T) | Raise(status: nat, detail: string)

  /**
   * Python truthiness of an optional string: `None` and `""` are both falsy.
   * The backend writes `if x:` / `x or y` over optional strings throughout.
   */
  predicate Truthy(s: Option<string>) {
    s.Some? && s.value != ""
  }
}

=== FILE: catalog.dfy ===
/**
 * The content listing endpoints of the backend (`server.py`): the database
 * query each builds from its optional filters, and the ordering
 * `list_products` applies to what the database returns.
 *
 * A query is the map of field to required value the handler passes to
 * `find`; a stored document matches when every queried field holds exactly
 * that value.
 */
module Catalog {
  import opened Base
  import Text
  import Sorting
  import Enums
  import Content

  /** The fields of a stored product document that the listing reads; any may be missing. */
  datatype ProductDoc = ProductDoc(slug: string, name: Option<string>, status: Option<string>, order: Option<int>,
                                   visibility: Option<string>, category: Option<string>)

  type Query = map<string, string>

  /** The value a document holds for a queried field. */
  function Field(d: ProductDoc, field: string): (v: Option<string>) {
    if field == "visibility" then d.visibility
    else if field == "status" then d.status
    else if field == "category" then d.category
    else None
  }

  /** The document satisfies every equality the query asks for. */
  predicate Selects(q: Query, d: ProductDoc) {
    forall f | f in q :: Field(d, f) == Some(q[f])
  }

  /**
   * The query of `list_products`: the given visibility, or `public` when none
   * (or an empty one) is given; `status` and `category` only when supplied.
   */
  function ProductQuery(visibility: Option<string>, status: Option<string>, category: Option<string>): (q: Query)
    ensures "visibility" in q && q["visibility"] == (if Truthy(visibility) then visibility.value else "public")
    ensures "status" in q <==> Truthy(status)
    ensures "category" in q <==> Truthy(category)
    ensures "status" in q ==> q["status"] == status.value
    ensures "category" in q ==> q["category"] == category.value
    ensures q.Keys <= {"visibility", "status", "category"}
  {
    var q := map["visibility" := if Truthy(visibility) then visibility.value else Enums.VisibilityValue(Enums.Public)];
    var q := if Truthy(status) then q["status" := status.value] else q;
    if Truthy(category) then q["category" := category.value] else q
  }

  /** Without a visibility filter, only public products are listed, whatever the other filters. */
  lemma DefaultListsOnlyPublic(visibility: Option<string>, status: Option<string>, category: Option<string>, d: ProductDoc)
    requires !Truthy(visibility)
    requires Selects(ProductQuery(visibility, status, category), d)
    ensures d.visibility == Some("public")
  {
    assert "visibility" in ProductQuery(visibility, status, category);
  }

  /** The filters narrow the listing: a document a filtered query selects is also selected without the filters. */
  lemma FiltersNarrow(visibility: Option<string>, status: Option<string>, category: Option<string>, d: ProductDoc)
    requires Selects(ProductQuery(visibility, status, category), d)
    ensures Selects(ProductQuery(visibility, None, None), d)
  {
    var q := ProductQuery(visibility, status, category);
    assert "visibility" in q;
  }

  /**
   * Nothing in `list_products` looks at the caller: a request without any
   * credentials that asks for `visibility=protected` selects every protected
   * product, although the handler is documented to return only public
   * products to unauthenticated callers.
   */
  lemma ProtectedListedAnonymously(d: ProductDoc)
    requires d.visibility == Some("protected")
    ensures Selects(ProductQuery(Some("protected"), None, None), d)
  {
  }

  /**
   * The query the documented rule asks for: an authenticated caller's filters
   * are used as given; an unauthenticated caller's visibility filter is
   * ignored in favour of `public`.
   */
  function ProductQueryFor(authenticated: bool, visibility: Option<string>, status: Option<string>,
                           category: Option<string>): (q: Query)
    ensures authenticated ==> q == ProductQuery(visibility, status, category)
    ensures !authenticated ==> "visibility" in q && q["visibility"] == "public"
    ensures q.Keys - {"visibility"} == ProductQuery(visibility, status, category).Keys - {"visibility"}
  {
    if authenticated then ProductQuery(visibility, status, category)
    else ProductQuery(None, status, category)
  }

  /** With the documented rule, an unauthenticated caller is shown public products only, whatever it asks for. */
  lemma AnonymousListsOnlyPublic(visibility: Option<string>, status: Option<string>, category: Option<string>,
                                 d: ProductDoc)
    requires Selects(ProductQueryFor(false, visibility, status, category), d)
    ensures d.visibility == Some("public")
  {
    assert "visibility" in ProductQueryFor(false, visibility, status, category);
  }

  /**
   * The query of `list_services`: the given visibility or `public`, and the
   * engagement type only when supplied.
   */
  function ServiceQuery(visibility: Option<string>, engagementType: Option<string>): (q: Query)
    ensures "visibility" in q && q["visibility"] == (if Truthy(visibility) then visibility.value else "public")
    ensures "engagement_type" in q <==> Truthy(engagementType)
    ensures "engagement_type" in q ==> q["engagement_type"] == engagementType.value
    ensures q.Keys <= {"visibility", "engagement_type"}
  {
    var q := map["visibility" := if Truthy(visibility) then visibility.value else Enums.VisibilityValue(Enums.Public)];
    if Truthy(engagementType) then q["engagement_type" := engagementType.value] else q
  }

  /** The query of `list_labs`: always visibility `labs`, whatever the caller asks; status only when supplied. */
  function LabQuery(status: Option<string>): (q: Query)
    ensures "visibility" in q && q["visibility"] == "labs"
    ensures "status" in q <==> Truthy(status)
    ensures "status" in q ==> q["status"] == status.value
    ensures q.Keys <= {"visibility", "status"}
  {
    var q := map["visibility" := Enums.VisibilityValue(Enums.Labs)];
    if Truthy(status) then q["status" := status.value] else q
  }

  // ---------------------------------------------------------------------------
  // Ordering
  // ---------------------------------------------------------------------------

  /** `status_order`: live 0, beta 1, pilot 2, idea 3, deprecated 4, archived 5, anything else 999. */
  function StatusRank(status: string): (rank: int)
    ensures Enums.ParseStatus(status).None? <==> rank == 999
    ensures Enums.ParseStatus(status).Some? ==> 0 <= rank <= 5
  {
    match Enums.ParseStatus(status)
    case None => 999
    case Some(s) =>
      match s
      case Live => 0
      case Beta => 1
      case Pilot => 2
      case Idea => 3
      case Deprecated => 4
      case Archived => 5
  }

  /** The rank follows the product lifecycle, and every known status ranks before an unknown one. */
  lemma StatusRankOrder(unknown: string)
    requires Enums.ParseStatus(unknown).None?
    ensures StatusRank("live") < StatusRank("beta") < StatusRank("pilot") < StatusRank("idea")
            < StatusRank("deprecated") < StatusRank("archived") < StatusRank(unknown)
  {
  }

  /** The tuple `sort_key` returns. */
  datatype SortKey = SortKey(order: int, rank: int, name: string)

  /** `sort_key(p)`: order (default 999), status rank (a missing status counts as idea), name (default ""). */
  function KeyOf(p: ProductDoc): (k: SortKey)
    ensures p.order.Some? ==> k.order == p.order.value
    ensures p.order.None? ==> k.order == 999
    ensures p.status.None? ==> k.rank == 3
    ensures p.status.Some? ==> k.rank == StatusRank(p.status.value)
    ensures p.name.None? ==> k.name == ""
    ensures p.name.Some? ==> k.name == p.name.value
  {
    SortKey(ValueOr(p.order, 999), StatusRank(ValueOr(p.status, Enums.StatusValue(Enums.Idea))), ValueOr(p.name, ""))
  }

  /** Python's `<` on the key tuples: lexicographic. */
  predicate KeyLt(a: SortKey, b: SortKey) {
    || a.order < b.order
    || (a.order == b.order && a.rank < b.rank)
    || (a.order == b.order && a.rank == b.rank && Text.StrLt(a.name, b.name))
  }

  lemma KeyLtIsStrictTotalOrder()
    ensures Sorting.StrictTotalOrder(KeyLt)
  {
    forall a: SortKey
      ensures !KeyLt(a, a)
    {
      Text.StrLtIrreflexive(a.name);
    }
    forall a: SortKey, b: SortKey, c: SortKey | KeyLt(a, b) && KeyLt(b, c)
      ensures KeyLt(a, c)
    {
      if a.order == b.order == c.order && a.rank == b.rank == c.rank {
        Text.StrLtTransitive(a.name, b.name, c.name);
      }
    }
    forall a: SortKey, b: SortKey | a != b
      ensures KeyLt(a, b) || KeyLt(b, a)
    {
      if a.order == b.order && a.rank == b.rank {
        Text.StrLtConnected(a.name, b.name);
      }
    }
  }

  /** A `ProductListResponse`: the products and their count. */
  datatype ProductList = ProductList(products: seq<ProductDoc>, total: int)

  /**
   * `Product(**p)` on a stored document, for the fields the model follows:
   * a valid slug and visibility, a name within its bounds, a `Status` value
   * and a category. A document that fails raises a validation error.
   */
  predicate Validates(d: ProductDoc) {
    && d.name.Some? && d.status.Some? && d.visibility.Some? && d.category.Some?
    && Content.BackendBaseValid(d.slug, d.visibility.value)
    && Content.Within(d.name.value, Content.BackendBound(Content.ProductName))
    && Enums.ParseStatus(d.status.value).Some?
  }

  /**
   * `list_products` after the database answered with `docs`: the documents
   * stably sorted by `sort_key`, each turned into a `Product`, with `total`
   * their number. One document that does not validate fails the whole request
   * with an unhandled error (500).
   */
  function ListProducts(docs: seq<ProductDoc>): (r: Response<ProductList>)
    ensures r.Raise? <==> exists d | d in docs :: !Validates(d)
    ensures r.Raise? ==> r.status == 500
    ensures r.Ok? ==> r.value.total == |r.value.products| == |docs|
    ensures r.Ok? ==> multiset(r.value.products) == multiset(docs)
    ensures r.Ok? ==> Sorting.SortedBy(r.value.products, KeyOf, KeyLt)
    ensures r.Ok? ==> forall k :: Sorting.Matching(r.value.products, KeyOf, k) == Sorting.Matching(docs, KeyOf, k)
  {
    KeyLtIsStrictTotalOrder();
    Sorting.SortByCorrect(docs, KeyOf, KeyLt);
    var sorted := Sorting.SortBy(docs, KeyOf, KeyLt);
    if exists d | d in docs :: !Validates(d) then Raise(500, "Internal Server Error")
    else Ok(ProductList(sorted, |sorted|))
  }

  /**
   * The defaults of `sort_key` never shape a listing that succeeds: every
   * listed product's key is its stored order (or 999), the rank of its stored
   * status, one of 0 to 5, and its stored name.
   */
  lemma ListedKeysUseStoredFields(docs: seq<ProductDoc>, i: int)
    requires ListProducts(docs).Ok? && 0 <= i < |ListProducts(docs).value.products|
    ensures var p := ListProducts(docs).value.products[i];
            && p.status.Some? && p.name.Some?
            && KeyOf(p) == SortKey(ValueOr(p.order, 999), StatusRank(p.status.value), p.name.value)
            && 0 <= KeyOf(p).rank <= 5
  {
    var ps := ListProducts(docs).value.products;
    assert ps[i] in multiset(ps);
    assert ps[i] in docs;
    assert Validates(ps[i]);
  }

  /**
   * In the listing, a product with an explicit order below 999 comes before
   * every product without one, and among equal orders a live product comes
   * before one of any other status.
   */
  lemma ListingOrder(docs: seq<ProductDoc>, i: int, j: int)
    requires ListProducts(docs).Ok? && 0 <= i < j < |ListProducts(docs).value.products|
    ensures var ps := ListProducts(docs).value.products;
            && (ps[i].order.None? ==> ps[j].order.None? || ps[j].order.value >= 999)
            && (KeyOf(ps[i]).order == KeyOf(ps[j]).order && ps[j].status == Some("live") ==>
                  ps[i].status == Some("live"))
  {
    var ps := ListProducts(docs).value.products;
    assert !KeyLt(KeyOf(ps[j]), KeyOf(ps[i]));
  }
}

=== FILE: content.dfy ===
/**
 * The declarative constraints on content, stated twice in the source: by the
 * Pydantic models of the backend (`models.py`) and by the Zod schemas of the
 * front end (`schemas.ts`), which parse what the backend sends.
 *
 * Each backend predicate says whether a model validates; each front-end
 * predicate says whether the JSON FastAPI emits for that model parses. The
 * front-end predicates take the table of modifiers on optional fields as a
 * parameter, so that the schema as written and the corrected one share one
 * definition.
 */
module Content {
  import opened Base
  import Text
  import Regex
  import Enums
  import Redirects
  import Auth
  import Access

  // ---------------------------------------------------------------------------
  // Patterns
  // ---------------------------------------------------------------------------

  const SlugClass: seq<Regex.Range> := [Regex.Range('a', 'z'), Regex.Range('0', '9'), Regex.Range('-', '-')]
  const HexClass: seq<Regex.Range> := [Regex.Range('0', '9'), Regex.Range('A', 'F'), Regex.Range('a', 'f')]
  const HashClass: seq<Regex.Range> := [Regex.Range('#', '#')]

  /** `pattern="^[a-z0-9-]+$"` on `ContentBase.slug`. */
  const BackendSlugPattern: Regex.Pattern := [Regex.Piece(SlugClass, 1, None)]
  /** `.regex(/^[a-z0-9-]+$/)` on `ContentBaseSchema.slug`. */
  const FrontendSlugPattern: Regex.Pattern := [Regex.Piece(SlugClass, 1, None)]
  /** `pattern="^#[0-9A-Fa-f]{6}$"` on `Product.accent_color`. */
  const BackendColorPattern: Regex.Pattern := [Regex.Piece(HashClass, 1, Some(1)), Regex.Piece(HexClass, 6, Some(6))]
  /** `.regex(/^#[0-9A-Fa-f]{6}$/)` on `ProductSchema.accent_color`. */
  const FrontendColorPattern: Regex.Pattern := [Regex.Piece(HashClass, 1, Some(1)), Regex.Piece(HexClass, 6, Some(6))]

  predicate SlugChar(c: char) {
    'a' <= c <= 'z' || '0' <= c <= '9' || c == '-'
  }

  predicate HexDigit(c: char) {
    '0' <= c <= '9' || 'A' <= c <= 'F' || 'a' <= c <= 'f'
  }

  /** A slug: non-empty, lower-case letters, digits and hyphens only. */
  predicate IsSlug(s: string) {
    |s| >= 1 && forall i | 0 <= i < |s| :: SlugChar(s[i])
  }

  /** An accent colour: `#` and six hexadecimal digits of either case. */
  predicate IsHexColor(s: string) {
    |s| == 7 && s[0] == '#' && forall i | 1 <= i < |s| :: HexDigit(s[i])
  }

  lemma SlugClassMeaning(c: char)
    ensures Regex.InClass(c, SlugClass) <==> SlugChar(c)
  {
    if 'a' <= c <= 'z' {
      assert SlugClass[0].lo <= c <= SlugClass[0].hi;
    } else if '0' <= c <= '9' {
      assert SlugClass[1].lo <= c <= SlugClass[1].hi;
    } else if c == '-' {
      assert SlugClass[2].lo <= c <= SlugClass[2].hi;
    }
  }

  lemma HexClassMeaning(c: char)
    ensures Regex.InClass(c, HexClass) <==> HexDigit(c)
  {
    if '0' <= c <= '9' {
      assert HexClass[0].lo <= c <= HexClass[0].hi;
    } else if 'A' <= c <= 'F' {
      assert HexClass[1].lo <= c <= HexClass[1].hi;
    } else if 'a' <= c <= 'f' {
      assert HexClass[2].lo <= c <= HexClass[2].hi;
    }
  }

  /** Both slug patterns accept exactly the slugs. */
  lemma SlugPatterns(s: string)
    ensures Regex.Matches(BackendSlugPattern, s) <==> IsSlug(s)
    ensures Regex.Matches(FrontendSlugPattern, s) <==> IsSlug(s)
  {
    assert BackendSlugPattern == FrontendSlugPattern == [Regex.Piece(SlugClass, 1, None)];
    Regex.SinglePiece(Regex.Piece(SlugClass, 1, None), s);
    forall i | 0 <= i < |s|
      ensures Regex.InClass(s[i], SlugClass) <==> SlugChar(s[i])
    {
      SlugClassMeaning(s[i]);
    }
  }

  /** Both colour patterns accept exactly `#` followed by six hexadecimal digits. */
  lemma ColorPatterns(s: string)
    ensures Regex.Matches(BackendColorPattern, s) <==> IsHexColor(s)
    ensures Regex.Matches(FrontendColorPattern, s) <==> IsHexColor(s)
  {
    var hex := Regex.Piece(HexClass, 6, Some(6));
    assert BackendColorPattern == FrontendColorPattern == [Regex.Piece(HashClass, 1, Some(1)), hex];
    Regex.OneThenPiece(HashClass, hex, s);
    if |s| >= 1 {
      Regex.SinglePiece(hex, s[1..]);
      forall i | 0 <= i < |s[1..]|
        ensures Regex.InClass(s[1..][i], HexClass) <==> HexDigit(s[i + 1])
      {
        HexClassMeaning(s[i + 1]);
      }
      assert Regex.InClass(s[0], HashClass) <==> s[0] == '#' by {
        if s[0] == '#' {
          assert HashClass[0].lo <= s[0] <= HashClass[0].hi;
        }
      }
    }
  }

  // ---------------------------------------------------------------------------
  // Length bounds
  // ---------------------------------------------------------------------------

  /** The string fields whose length is bounded. */
  datatype BoundedField = ProductName | Tagline | ShortDescription | ServiceName | Summary
                        | LabName | PageTitle | SeoDescription

  datatype Bound = Bound(min: nat, max: nat)

  /** `min_length` / `max_length` in `models.py` (a missing `min_length` is 0). */
  function BackendBound(f: BoundedField): (b: Bound) {
    match f
    case ProductName => Bound(1, 100)
    case Tagline => Bound(0, 150)
    case ShortDescription => Bound(0, 300)
    case ServiceName => Bound(1, 100)
    case Summary => Bound(0, 300)
    case LabName => Bound(1, 100)
    case PageTitle => Bound(1, 100)
    case SeoDescription => Bound(0, 160)
  }

  /** `.min()` / `.max()` in `schemas.ts`. */
  function FrontendBound(f: BoundedField): (b: Bound) {
    match f
    case ProductName => Bound(1, 100)
    case Tagline => Bound(0, 150)
    case ShortDescription => Bound(0, 300)
    case ServiceName => Bound(1, 100)
    case Summary => Bound(0, 300)
    case LabName => Bound(1, 100)
    case PageTitle => Bound(1, 100)
    case SeoDescription => Bound(0, 160)
  }

  /** The two sides declare the same numbers, and every lower bound is at most 1. */
  lemma BoundsMirror(f: BoundedField)
    ensures BackendBound(f) == FrontendBound(f)
    ensures BackendBound(f).min <= 1
  {
  }

  /** Pydantic's length check: the number of code points. */
  predicate Within(s: string, b: Bound) {
    b.min <= |s| <= b.max
  }

  /** Zod's length check: the JavaScript `length`, in UTF-16 code units. */
  predicate WithinUtf16(s: string, b: Bound) {
    b.min <= Text.Utf16Length(s) <= b.max
  }

  predicate NoAstral(s: string) {
    forall i | 0 <= i < |s| :: !Text.IsAstral(s[i])
  }

  /**
   * The two ways of counting agree on strings inside the Basic Multilingual
   * Plane; elsewhere Zod is the stricter one when the lower bound is at most 1.
   */
  lemma LengthChecks(s: string, b: Bound)
    ensures NoAstral(s) ==> (Within(s, b) <==> WithinUtf16(s, b))
    ensures b.min <= 1 && WithinUtf16(s, b) ==> Within(s, b)
  {
  }

  /** Sixty emoji make a name Pydantic accepts (60 code points) and Zod rejects (120 units). */
  lemma AstralNameRejected()
    ensures var name := seq(60, i => '😀');
            Within(name, BackendBound(ProductName)) && !WithinUtf16(name, FrontendBound(ProductName))
  {
    var name := seq(60, i => '😀');
    Text.Utf16AllAstral(name);
  }

  // ---------------------------------------------------------------------------
  // Enumerations on the front end
  // ---------------------------------------------------------------------------

  /** The `z.enum([...])` lists of `schemas.ts`. */
  const FrontendVisibilityValues: seq<string> := ["public", "protected", "labs"]
  const FrontendStatusValues: seq<string> := ["idea", "pilot", "beta", "live", "deprecated", "archived"]
  const FrontendLabStatusValues: seq<string> := ["hypothesis", "running", "validated", "failed", "graduated"]
  const FrontendEngagementTypeValues: seq<string> := ["pilot", "project", "retainer"]
  const FrontendRoleValues: seq<string> := ["admin", "collaborator", "client"]

  /** Each Zod enumeration lists exactly the values of the matching backend enumeration. */
  lemma EnumsMirror()
    ensures (set v | v in FrontendVisibilityValues) == Enums.VisibilityValues()
    ensures (set v | v in FrontendStatusValues) == Enums.StatusValues()
    ensures (set v | v in FrontendLabStatusValues) == Enums.LabStatusValues()
    ensures (set v | v in FrontendEngagementTypeValues) == Enums.EngagementTypeValues()
    ensures (set v | v in FrontendRoleValues) == Enums.RoleValues()
  {
    Enums.VisibilityValueSet();
    Enums.StatusValueSet();
    Enums.LabStatusValueSet();
    Enums.EngagementTypeValueSet();
    Enums.RoleValueSet();
  }

  /** A value is in a Zod list exactly when the backend enumeration parses it. */
  lemma EnumMembership(s: string)
    ensures s in FrontendVisibilityValues <==> Enums.ParseVisibility(s).Some?
    ensures s in FrontendStatusValues <==> Enums.ParseStatus(s).Some?
    ensures s in FrontendLabStatusValues <==> Enums.ParseLabStatus(s).Some?
    ensures s in FrontendEngagementTypeValues <==> Enums.ParseEngagementType(s).Some?
    ensures s in FrontendRoleValues <==> Enums.ParseRole(s).Some?
  {
  }

  // ---------------------------------------------------------------------------
  // Optional fields on the wire
  // ---------------------------------------------------------------------------

  /** An optional field as the JSON carries it. */
  datatype Wire<T> = Absent | Null | Value(value: T)

  /** FastAPI serialises a model field holding `None` as `null`. */
  function Emit<T>(o: Option<T>): (w: Wire<T>)
    ensures w.Null? <==> o.None?
    ensures o.Some? ==> w == Value(o.value)
  {
    match o
    case None => Null
    case Some(v) => Value(v)
  }

  /**
   * The Zod modifiers on optional fields: `.optional()`, `.optional().nullable()`
   * (or `.nullish()`), and `z.coerce.date().optional()`, which turns `null`
   * into the epoch date.
   */
  datatype Modifier = Optional | Nullish | CoercedDate

  /** Whether a modifier lets a wire value through (the value itself checked separately). */
  predicate Admits<T>(m: Modifier, w: Wire<T>) {
    m != Optional || !w.Null?
  }

  /** The optional fields the model follows from backend to front end. */
  datatype OptionalField = Order | Duration | Hypothesis | StartDate | EndDate | GraduatedTo | Metrics | MetricActual
                         | Seo | SeoTitle | SeoDescriptionField | SeoOgImage | Picture | OrganizationSlug
                         | OrganizationId | AccessExpiresAt

  /** The modifiers as `schemas.ts` writes them. */
  function ModifiersAsWritten(f: OptionalField): (m: Modifier) {
    match f
    case Duration => Nullish
    case StartDate => CoercedDate
    case EndDate => CoercedDate
    case AccessExpiresAt => CoercedDate
    case _ => Optional
  }

  /** The corrected schema: every plain `.optional()` also accepts `null`. */
  function Modifiers(f: OptionalField): (m: Modifier)
    ensures m != Optional
    ensures ModifiersAsWritten(f) != Optional ==> m == ModifiersAsWritten(f)
  {
    if ModifiersAsWritten(f) == Optional then Nullish else ModifiersAsWritten(f)
  }

  /** With the corrected modifiers every optional field the backend emits is admitted. */
  lemma EmittedOptionalAdmitted<T>(f: OptionalField, o: Option<T>)
    ensures Admits(Modifiers(f), Emit(o))
  {
  }

  /** As written, a `None` in a plain `.optional()` field arrives as `null` and is refused. */
  lemma EmittedNullRefused<T>(f: OptionalField)
    requires ModifiersAsWritten(f) == Optional
    ensures !Admits(ModifiersAsWritten(f), Emit<T>(None))
  {
  }

  // ---------------------------------------------------------------------------
  // Records
  // ---------------------------------------------------------------------------

  /** The constrained fields of a `Product`. */
  datatype Product = Product(slug: string, visibility: string, order: Option<int>, name: string, tagline: string,
                             shortDescription: string, status: string, accentColor: string)

  /** The constrained fields of a `Service`. */
  datatype Service = Service(slug: string, visibility: string, order: Option<int>, name: string, summary: string,
                             engagementType: string, duration: Option<string>)

  /** A `LabMetric`: a named target and the value reached so far, if any. */
  datatype LabMetric = LabMetric(name: string, target: string, actual: Option<string>)

  /** The constrained fields of a `Lab`; `visibility` is `None` when the document omits it. */
  datatype Lab = Lab(slug: string, visibility: Option<string>, order: Option<int>, name: string, status: string,
                     hypothesis: Option<string>, startDate: Option<int>, endDate: Option<int>, graduatedTo: Option<string>,
                     metrics: Option<seq<LabMetric>>)

  datatype PageSeo = PageSeo(title: Option<string>, description: Option<string>, ogImage: Option<string>)

  /** The constrained fields of a `Page`. */
  datatype Page = Page(slug: string, visibility: string, order: Option<int>, title: string, seo: Option<PageSeo>)

  /** `ContentBase`: slug pattern and visibility enumeration. */
  predicate BackendBaseValid(slug: string, visibility: string) {
    Regex.Matches(BackendSlugPattern, slug) && Enums.ParseVisibility(visibility).Some?
  }

  /** `ContentBaseSchema` on the emitted JSON. */
  predicate FrontendBaseValid(slug: string, visibility: string, order: Option<int>, mods: OptionalField -> Modifier) {
    && Regex.Matches(FrontendSlugPattern, slug)
    && visibility in FrontendVisibilityValues
    && Admits(mods(Order), Emit(order))
  }

  predicate BackendProductValid(p: Product) {
    && BackendBaseValid(p.slug, p.visibility)
    && Within(p.name, BackendBound(ProductName))
    && Within(p.tagline, BackendBound(Tagline))
    && Within(p.shortDescription, BackendBound(ShortDescription))
    && Enums.ParseStatus(p.status).Some?
    && Regex.Matches(BackendColorPattern, p.accentColor)
  }

  predicate FrontendProductValid(p: Product, mods: OptionalField -> Modifier) {
    && FrontendBaseValid(p.slug, p.visibility, p.order, mods)
    && WithinUtf16(p.name, FrontendBound(ProductName))
    && WithinUtf16(p.tagline, FrontendBound(Tagline))
    && WithinUtf16(p.shortDescription, FrontendBound(ShortDescription))
    && p.status in FrontendStatusValues
    && Regex.Matches(FrontendColorPattern, p.accentColor)
  }

  predicate BackendServiceValid(s: Service) {
    && BackendBaseValid(s.slug, s.visibility)
    && Within(s.name, BackendBound(ServiceName))
    && Within(s.summary, BackendBound(Summary))
    && Enums.ParseEngagementType(s.engagementType).Some?
  }

  predicate FrontendServiceValid(s: Service, mods: OptionalField -> Modifier) {
    && FrontendBaseValid(s.slug, s.visibility, s.order, mods)
    && WithinUtf16(s.name, FrontendBound(ServiceName))
    && WithinUtf16(s.summary, FrontendBound(Summary))
    && s.engagementType in FrontendEngagementTypeValues
    && Admits(mods(Duration), Emit(s.duration))
  }

  /** `Lab.visibility: Literal[Visibility.LABS] = Visibility.LABS`: missing means `labs`; present must be `labs`. */
  function BackendLabVisibility(v: Option<string>): (r: Option<Enums.Visibility>)
    ensures r.Some? ==> r.value == Enums.Labs
    ensures r.Some? <==> v.None? || v == Some("labs")
  {
    if v.None? || v == Some(Enums.VisibilityValue(Enums.Labs)) then Some(Enums.Labs) else None
  }

  predicate BackendLabValid(l: Lab) {
    && Regex.Matches(BackendSlugPattern, l.slug)
    && BackendLabVisibility(l.visibility).Some?
    && Within(l.name, BackendBound(LabName))
    && Enums.ParseLabStatus(l.status).Some?
  }

  /** The visibility the backend emits for a lab: the validated value, `labs`. */
  function EmittedLabVisibility(l: Lab): (v: string) {
    ValueOr(l.visibility, Enums.VisibilityValue(Enums.Labs))
  }

  /** `LabSchema`: `visibility: z.literal('labs')` replaces the base enumeration. */
  predicate FrontendLabValid(l: Lab, mods: OptionalField -> Modifier) {
    && Regex.Matches(FrontendSlugPattern, l.slug)
    && EmittedLabVisibility(l) == "labs"
    && Admits(mods(Order), Emit(l.order))
    && WithinUtf16(l.name, FrontendBound(LabName))
    && l.status in FrontendLabStatusValues
    && Admits(mods(Hypothesis), Emit(l.hypothesis))
    && Admits(mods(StartDate), Emit(l.startDate))
    && Admits(mods(EndDate), Emit(l.endDate))
    && Admits(mods(GraduatedTo), Emit(l.graduatedTo))
    && Admits(mods(Metrics), Emit(l.metrics))
    && (l.metrics.Some? ==>
          forall i | 0 <= i < |l.metrics.value| :: Admits(mods(MetricActual), Emit(l.metrics.value[i].actual)))
  }

  predicate BackendPageValid(p: Page) {
    && BackendBaseValid(p.slug, p.visibility)
    && Within(p.title, BackendBound(PageTitle))
    && (p.seo.Some? && p.seo.value.description.Some? ==>
          Within(p.seo.value.description.value, BackendBound(SeoDescription)))
  }

  predicate FrontendPageValid(p: Page, mods: OptionalField -> Modifier) {
    && FrontendBaseValid(p.slug, p.visibility, p.order, mods)
    && WithinUtf16(p.title, FrontendBound(PageTitle))
    && Admits(mods(Seo), Emit(p.seo))
    && (p.seo.Some? ==>
          && Admits(mods(SeoTitle), Emit(p.seo.value.title))
          && Admits(mods(SeoDescriptionField), Emit(p.seo.value.description))
          && Admits(mods(SeoOgImage), Emit(p.seo.value.ogImage))
          && (p.seo.value.description.Some? ==>
                WithinUtf16(p.seo.value.description.value, FrontendBound(SeoDescription))))
  }

  /** `UserSchema` on an emitted `User` (the e-mail format check is not modelled). */
  predicate FrontendUserValid(u: Auth.User, mods: OptionalField -> Modifier) {
    && Enums.RoleValue(u.role) in FrontendRoleValues
    && Admits(mods(Picture), Emit(u.picture))
    && Admits(mods(OrganizationSlug), Emit(u.organizationSlug))
  }

  /** `ClientAccessSchema` on an emitted `ClientAccess` (every `Permission` is one of the three names). */
  predicate FrontendAccessValid(a: Access.ClientAccess, mods: OptionalField -> Modifier) {
    && Admits(mods(OrganizationId), Emit(a.organizationId))
    && Admits(mods(AccessExpiresAt), Emit(a.expiresAt))
  }

  lemma BaseMirror(slug: string, visibility: string, order: Option<int>)
    ensures FrontendBaseValid(slug, visibility, order, Modifiers) <==> BackendBaseValid(slug, visibility)
  {
    SlugPatterns(slug);
    EnumMembership(visibility);
  }

  /**
   * With the corrected modifiers the product schemas mirror each other: the
   * front end parses no product the backend refuses, and parses every product
   * the backend serves whose bounded texts stay inside the Basic Multilingual Plane.
   */
  lemma ProductMirror(p: Product)
    ensures FrontendProductValid(p, Modifiers) ==> BackendProductValid(p)
    ensures (BackendProductValid(p) && NoAstral(p.name) && NoAstral(p.tagline) && NoAstral(p.shortDescription))
            ==> FrontendProductValid(p, Modifiers)
  {
    BaseMirror(p.slug, p.visibility, p.order);
    ColorPatterns(p.accentColor);
    EnumMembership(p.status);
    LengthChecks(p.name, BackendBound(ProductName));
    LengthChecks(p.tagline, BackendBound(Tagline));
    LengthChecks(p.shortDescription, BackendBound(ShortDescription));
  }

  /** The same mirror for services. */
  lemma ServiceMirror(s: Service)
    ensures FrontendServiceValid(s, Modifiers) ==> BackendServiceValid(s)
    ensures BackendServiceValid(s) && NoAstral(s.name) && NoAstral(s.summary) ==> FrontendServiceValid(s, Modifiers)
  {
    BaseMirror(s.slug, s.visibility, s.order);
    EnumMembership(s.engagementType);
    LengthChecks(s.name, BackendBound(ServiceName));
    LengthChecks(s.summary, BackendBound(Summary));
  }

  /** The same mirror for labs; in particular every lab either side accepts has visibility `labs`. */
  lemma LabMirror(l: Lab)
    ensures FrontendLabValid(l, Modifiers) ==> BackendLabValid(l)
    ensures BackendLabValid(l) && NoAstral(l.name) ==> FrontendLabValid(l, Modifiers)
    ensures BackendLabValid(l) ==> BackendLabVisibility(l.visibility) == Some(Enums.Labs)
  {
    SlugPatterns(l.slug);
    EnumMembership(l.status);
    LengthChecks(l.name, BackendBound(LabName));
  }

  /** A lab without metrics, or with a metric not yet measured, is refused by the schema as written. */
  lemma LabWithoutMeasurementRefused(l: Lab)
    requires l.metrics.None? || exists i | 0 <= i < |l.metrics.value| :: l.metrics.value[i].actual.None?
    ensures !FrontendLabValid(l, ModifiersAsWritten)
  {
  }

  /** The same mirror for pages. */
  lemma PageMirror(p: Page)
    ensures FrontendPageValid(p, Modifiers) ==> BackendPageValid(p)
    ensures (&& BackendPageValid(p) && NoAstral(p.title)
             && (p.seo.Some? && p.seo.value.description.Some? ==> NoAstral(p.seo.value.description.value)))
            ==> FrontendPageValid(p, Modifiers)
  {
    BaseMirror(p.slug, p.visibility, p.order);
    LengthChecks(p.title, BackendBound(PageTitle));
    if p.seo.Some? && p.seo.value.description.Some? {
      LengthChecks(p.seo.value.description.value, BackendBound(SeoDescription));
    }
  }

  /** Every user the backend returns parses with the corrected schema. */
  lemma UserMirror(u: Auth.User)
    ensures FrontendUserValid(u, Modifiers)
  {
    EnumMembership(Enums.RoleValue(u.role));
  }

  /** Every access record the backend returns parses with the corrected schema, including the default one. */
  lemma AccessMirror(a: Access.ClientAccess)
    ensures FrontendAccessValid(a, Modifiers)
  {
  }

  /**
   * As written, the record `get_client_access` returns when none is stored
   * is refused: its `organization_id` is `None`, emitted as `null`.
   */
  lemma DefaultAccessRefused(target: string, now: int)
    ensures !FrontendAccessValid(Access.DefaultAccess(target, now), ModifiersAsWritten)
  {
  }

  /** The `about` page of the seed data: no `order`, and an SEO block without `og_image`. */
  const SeededAbout: Page := Page("about", "public", None, "About Relvanta",
                                  Some(PageSeo(Some("About Relvanta"), Some("AI solutions for modern businesses"), None)))

  /** The texts of the seeded `about` page are well-formed and inside the Basic Multilingual Plane. */
  lemma SeededAboutTexts()
    ensures IsSlug(SeededAbout.slug)
    ensures Enums.ParseVisibility(SeededAbout.visibility).Some?
    ensures Within(SeededAbout.title, BackendBound(PageTitle)) && NoAstral(SeededAbout.title)
    ensures Within(SeededAbout.seo.value.description.value, BackendBound(SeoDescription))
    ensures NoAstral(SeededAbout.seo.value.description.value)
  {
    var slug, title, d := SeededAbout.slug, SeededAbout.title, SeededAbout.seo.value.description.value;
    forall i | 0 <= i < |slug| ensures SlugChar(slug[i]) { }
    forall i | 0 <= i < |title| ensures !Text.IsAstral(title[i]) { }
    forall i | 0 <= i < |d| ensures !Text.IsAstral(d[i]) { }
  }

  /** The backend validates the seeded `about` page, and the corrected schema parses what it sends. */
  lemma SeededPageServed()
    ensures BackendPageValid(SeededAbout)
    ensures FrontendPageValid(SeededAbout, Modifiers)
  {
    SeededAboutTexts();
    SlugPatterns(SeededAbout.slug);
    PageMirror(SeededAbout);
  }

  /** The schema as written refuses the seeded `about` page: its missing `order` arrives as `null`. */
  lemma SeededPageRefused()
    ensures !FrontendPageValid(SeededAbout, ModifiersAsWritten)
  {
    assert !Admits(ModifiersAsWritten(Order), Emit(SeededAbout.order));
  }

  /** A user without a picture, as a Firebase account may be, is refused by the schema as written. */
  lemma UserWithoutPictureRefused(u: Auth.User)
    requires u.picture.None?
    ensures !FrontendUserValid(u, ModifiersAsWritten)
  {
  }

  // ---------------------------------------------------------------------------
  // Defaults
  // ---------------------------------------------------------------------------

  /** `Redirect` from a document: `permanent` defaults to true. */
  function RedirectFromDoc(from: string, to: string, permanent: Option<bool>): (r: Redirects.Rule)
    ensures r.from == from && r.to == to
    ensures permanent.None? ==> r.permanent
    ensures permanent.Some? ==> r.permanent == permanent.value
  {
    Redirects.Rule(from, to, ValueOr(permanent, true))
  }

  /** `User.role`: a missing role is `client`; a present one must be a member of `Role`. */
  function UserRole(role: Option<string>): (r: Option<Enums.Role>)
    ensures role.None? ==> r == Some(Enums.Client)
    ensures role.Some? ==> (r.Some? <==> role.value in FrontendRoleValues)
    ensures r.Some? && role.Some? ==> Enums.RoleValue(r.value) == role.value
  {
    match role
    case None => Some(Enums.Client)
    case Some(s) => Enums.ParseRole(s)
  }
}

=== FILE: enums.dfy ===
/**
 * The string enumerations of the content model (`models.py`), each with its
 * wire value and the parse from a wire value.
 */
module Enums {
  import opened Base

  datatype Visibility = Public | Protected | Labs
  datatype Status = Idea | Pilot | Beta | Live | Deprecated | Archived
  datatype LabStatus = Hypothesis | Running | Validated | Failed | Graduated
  datatype EngagementType = PilotEngagement | Project | Retainer
  datatype Role = Admin | Collaborator | Client

  function VisibilityValue(v: Visibility): (name: string) {
    match v
    case Public => "public"
    case Protected => "protected"
    case Labs => "labs"
  }

  function ParseVisibility(s: string): (r: Option<Visibility>)
    ensures r.Some? ==> VisibilityValue(r.value) == s
    ensures forall v: Visibility :: VisibilityValue(v) == s ==> r == Some(v)
  {
    if s == "public" then Some(Public)
    else if s == "protected" then Some(Protected)
    else if s == "labs" then Some(Labs)
    else None
  }

  function StatusValue(s: Status): (name: string) {
    match s
    case Idea => "idea"
    case Pilot => "pilot"
    case Beta => "beta"
    case Live => "live"
    case Deprecated => "deprecated"
    case Archived => "archived"
  }

  function ParseStatus(s: string): (r: Option<Status>)
    ensures r.Some? ==> StatusValue(r.value) == s
    ensures forall v: Status :: StatusValue(v) == s ==> r == Some(v)
  {
    if s == "idea" then Some(Idea)
    else if s == "pilot" then Some(Pilot)
    else if s == "beta" then Some(Beta)
    else if s == "live" then Some(Live)
    else if s == "deprecated" then Some(Deprecated)
    else if s == "archived" then Some(Archived)
    else None
  }

  function LabStatusValue(s: LabStatus): (name: string) {
    match s
    case Hypothesis => "hypothesis"
    case Running => "running"
    case Validated => "validated"
    case Failed => "failed"
    case Graduated => "graduated"
  }

  function ParseLabStatus(s: string): (r: Option<LabStatus>)
    ensures r.Some? ==> LabStatusValue(r.value) == s
    ensures forall v: LabStatus :: LabStatusValue(v) == s ==> r == Some(v)
  {
    if s == "hypothesis" then Some(Hypothesis)
    else if s == "running" then Some(Running)
    else if s == "validated" then Some(Validated)
    else if s == "failed" then Some(Failed)
    else if s == "graduated" then Some(Graduated)
    else None
  }

  function EngagementTypeValue(e: EngagementType): (name: string) {
    match e
    case PilotEngagement => "pilot"
    case Project => "project"
    case Retainer => "retainer"
  }

  function ParseEngagementType(s: string): (r: Option<EngagementType>)
    ensures r.Some? ==> EngagementTypeValue(r.value) == s
    ensures forall v: EngagementType :: EngagementTypeValue(v) == s ==> r == Some(v)
  {
    if s == "pilot" then Some(PilotEngagement)
    else if s == "project" then Some(Project)
    else if s == "retainer" then Some(Retainer)
    else None
  }

  function RoleValue(r: Role): (name: string) {
    match r
    case Admin => "admin"
    case Collaborator => "collaborator"
    case Client => "client"
  }

  function ParseRole(s: string): (r: Option<Role>)
    ensures r.Some? ==> RoleValue(r.value) == s
    ensures forall v: Role :: RoleValue(v) == s ==> r == Some(v)
  {
    if s == "admin" then Some(Admin)
    else if s == "collaborator" then Some(Collaborator)
    else if s == "client" then Some(Client)
    else None
  }

  /** The wire values of each enumeration, as the backend declares them. */
  function VisibilityValues(): (names: set<string>) { set v: Visibility :: VisibilityValue(v) }
  function StatusValues(): (names: set<string>) { set v: Status :: StatusValue(v) }
  function LabStatusValues(): (names: set<string>) { set v: LabStatus :: LabStatusValue(v) }
  function EngagementTypeValues(): (names: set<string>) { set v: EngagementType :: EngagementTypeValue(v) }
  function RoleValues(): (names: set<string>) { set v: Role :: RoleValue(v) }

  lemma StatusValueSet()
    ensures StatusValues() == {"idea", "pilot", "beta", "live", "deprecated", "archived"}
  {
    forall s | s in StatusValues() ensures s in {"idea", "pilot", "beta", "live", "deprecated", "archived"} {
      var v: Status :| StatusValue(v) == s;
    }
    assert StatusValue(Idea) in StatusValues() && StatusValue(Pilot) in StatusValues();
    assert StatusValue(Beta) in StatusValues() && StatusValue(Live) in StatusValues();
    assert StatusValue(Deprecated) in StatusValues() && StatusValue(Archived) in StatusValues();
  }

  lemma LabStatusValueSet()
    ensures LabStatusValues() == {"hypothesis", "running", "validated", "failed", "graduated"}
  {
    forall s | s in LabStatusValues() ensures s in {"hypothesis", "running", "validated", "failed", "graduated"} {
      var v: LabStatus :| LabStatusValue(v) == s;
    }
    assert LabStatusValue(Hypothesis) in LabStatusValues() && LabStatusValue(Running) in LabStatusValues();
    assert LabStatusValue(Validated) in LabStatusValues() && LabStatusValue(Failed) in LabStatusValues();
    assert LabStatusValue(Graduated) in LabStatusValues();
  }

  lemma VisibilityValueSet()
    ensures VisibilityValues() == {"public", "protected", "labs"}
  {
    forall s | s in VisibilityValues() ensures s in {"public", "protected", "labs"} {
      var v: Visibility :| VisibilityValue(v) == s;
    }
    assert VisibilityValue(Public) in VisibilityValues() && VisibilityValue(Protected) in VisibilityValues();
    assert VisibilityValue(Labs) in VisibilityValues();
  }

  lemma EngagementTypeValueSet()
    ensures EngagementTypeValues() == {"pilot", "project", "retainer"}
  {
    forall s | s in EngagementTypeValues() ensures s in {"pilot", "project", "retainer"} {
      var v: EngagementType :| EngagementTypeValue(v) == s;
    }
    assert EngagementTypeValue(PilotEngagement) in EngagementTypeValues();
    assert EngagementTypeValue(Project) in EngagementTypeValues();
    assert EngagementTypeValue(Retainer) in EngagementTypeValues();
  }

  lemma RoleValueSet()
    ensures RoleValues() == {"admin", "collaborator", "client"}
  {
    forall s | s in RoleValues() ensures s in {"admin", "collaborator", "client"} {
      var v: Role :| RoleValue(v) == s;
    }
    assert RoleValue(Admin) in RoleValues() && RoleValue(Collaborator) in RoleValues();
    assert RoleValue(Client) in RoleValues();
  }

  /** `Status` has six distinct members and `LabStatus` five; the other three have three each. */
  lemma EnumSizes()
    ensures |StatusValues()| == 6 && |LabStatusValues()| == 5
    ensures |VisibilityValues()| == 3 && |EngagementTypeValues()| == 3 && |RoleValues()| == 3
  {
    StatusValueSet();
    LabStatusValueSet();
    VisibilityValueSet();
    EngagementTypeValueSet();
    RoleValueSet();
  }
}

=== FILE: navigation.dfy ===
/**
 * Site navigation of the front end: the ordered main menu and the footer
 * sections (`lib/navigation.ts`), and which entry of the mobile tab bar is
 * highlighted for the current path (`components/layout/MobileNav.tsx`).
 */
module Navigation {
  import opened Base
  import Text
  import Sorting

  /** `NavItem`: a label, a target path and an optional explicit position. */
  datatype NavItem = NavItem(name: string, href: string, order: Option<int>)

  /** `item.order || 999`: a missing order and an order of 0 are both falsy and count as 999. */
  function EffectiveOrder(item: NavItem): (n: int)
    ensures item.order.None? || item.order == Some(0) ==> n == 999
    ensures item.order.Some? && item.order.value != 0 ==> n == item.order.value
  {
    match item.order
    case None => 999
    case Some(o) => if o == 0 then 999 else o
  }

  /** The comparator `(a, b) => ea - eb` puts `a` first exactly when `ea < eb`. */
  predicate OrderLt(a: int, b: int) {
    a < b
  }

  lemma OrderLtIsStrictTotalOrder()
    ensures Sorting.StrictTotalOrder(OrderLt)
  {
  }

  /**
   * The menu sort: a stable sort ascending by effective order. An item with a
   * falsy order sorts after every item whose order is below 999.
   */
  function SortMenu(items: seq<NavItem>): (r: seq<NavItem>)
    ensures multiset(r) == multiset(items)
    ensures Sorting.SortedBy(r, EffectiveOrder, OrderLt)
    ensures forall k :: Sorting.Matching(r, EffectiveOrder, k) == Sorting.Matching(items, EffectiveOrder, k)
  {
    OrderLtIsStrictTotalOrder();
    Sorting.SortByCorrect(items, EffectiveOrder, OrderLt);
    Sorting.SortBy(items, EffectiveOrder, OrderLt)
  }

  /** Because the comparison uses `||`, an item whose order is 0 or missing ends up behind all items with an order in 1..998. */
  lemma FalsyOrderSortsLast(items: seq<NavItem>, i: int, j: int)
    requires 0 <= i < j < |SortMenu(items)|
    requires SortMenu(items)[i].order.None? || SortMenu(items)[i].order == Some(0)
    ensures EffectiveOrder(SortMenu(items)[j]) >= 999
  {
    var r := SortMenu(items);
    assert !OrderLt(EffectiveOrder(r[j]), EffectiveOrder(r[i]));
  }

  /** The table `getMainNavigation` sorts. */
  const MainTable: seq<NavItem> := [
    NavItem("Products", "/products", Some(1)),
    NavItem("Services", "/services", Some(2)),
    NavItem("Labs", "/labs", Some(3)),
    NavItem("About", "/about", Some(4))
  ]

  /** The main table is already in menu order, so sorting leaves it as it is. */
  lemma MainTableInOrder()
    ensures Sorting.SortBy(MainTable, EffectiveOrder, OrderLt) == MainTable
  {
    assert Sorting.SortedBy(MainTable, EffectiveOrder, OrderLt);
    Sorting.SortBySortedIsIdentity(MainTable, EffectiveOrder, OrderLt);
  }

  /** `getMainNavigation()`: Products, Services, Labs, About, in that order. */
  function MainNavigation(): (r: seq<NavItem>)
    ensures |r| == 4
    ensures r[0].href == "/products" && r[1].href == "/services" && r[2].href == "/labs" && r[3].href == "/about"
    ensures r[0].name == "Products" && r[1].name == "Services" && r[2].name == "Labs" && r[3].name == "About"
  {
    MainTableInOrder();
    SortMenu(MainTable)
  }

  /** `FooterSection`: a titled group of links. */
  datatype FooterSection = FooterSection(title: string, links: seq<NavItem>)

  /** `getFooterNavigation()`: three sections of three links each. */
  function FooterNavigation(): (r: seq<FooterSection>)
    ensures |r| == 3
    ensures r[0].title == "Products" && r[1].title == "Services" && r[2].title == "Company"
    ensures forall i | 0 <= i < |r| :: |r[i].links| == 3
    ensures forall i, j | 0 <= i < |r| && 0 <= j < |r[i].links| :: r[i].links[j].order.None?
  {
    [
      FooterSection("Products", [
        NavItem("OneEye", "/products/oneeye", None),
        NavItem("PredictIQ", "/products/predictiq", None),
        NavItem("ChatFlow", "/products/chatflow", None)
      ]),
      FooterSection("Services", [
        NavItem("Strategy Consulting", "/services/ai-strategy-consulting", None),
        NavItem("MLOps Implementation", "/services/mlops-implementation", None),
        NavItem("AI Pilot Program", "/services/ai-pilot-program", None)
      ]),
      FooterSection("Company", [
        NavItem("About", "/about", None),
        NavItem("Labs", "/labs", None),
        NavItem("Sign In", "/login", None)
      ])
    ]
  }

  // ---------------------------------------------------------------------------
  // Mobile tab bar
  // ---------------------------------------------------------------------------

  /** The entries of the mobile tab bar (`navItems`), with their icons. */
  datatype TabItem = TabItem(name: string, href: string, icon: string)

  const Tabs: seq<TabItem> := [
    TabItem("Home", "/", "apps"),
    TabItem("Products", "/products", "inventory_2"),
    TabItem("Services", "/services", "handshake"),
    TabItem("Labs", "/labs", "science")
  ]

  /** `isActive`: the path is the entry's href, or, for any entry but the root, starts with it. */
  predicate IsActive(pathname: string, href: string) {
    pathname == href || (href != "/" && Text.StartsWith(pathname, href))
  }

  /** The root entry is highlighted on `/` only. */
  lemma HomeActiveOnlyAtRoot(pathname: string)
    ensures IsActive(pathname, "/") <==> pathname == "/"
  {
  }

  /** Any other entry is highlighted exactly when the path starts with its href, character by character. */
  lemma PrefixRule(pathname: string, href: string)
    requires href != "/"
    ensures IsActive(pathname, href) <==> Text.StartsWith(pathname, href)
  {
  }

  /** The prefix is not segment-aware: `/productsX` highlights Products just as `/products/oneeye` does. */
  lemma PrefixIsCharacterLevel()
    ensures IsActive("/products/oneeye", "/products") && IsActive("/productsX", "/products")
  {
    assert "/products/oneeye"[..9] == "/products";
    assert "/productsX"[..9] == "/products";
  }

  /** What an active entry tells about the path: the root needs `/` itself, the others fix its second character. */
  lemma ActiveShape(pathname: string, i: int)
    requires 0 <= i < |Tabs| && IsActive(pathname, Tabs[i].href)
    ensures i == 0 ==> pathname == "/"
    ensures i != 0 ==> |pathname| >= 2 && pathname[1] == Tabs[i].href[1]
  {
    if i != 0 && pathname != Tabs[i].href {
      assert pathname[..|Tabs[i].href|] == Tabs[i].href;
    }
  }

  /** For the fixed table, no path highlights two entries. */
  lemma AtMostOneActive(pathname: string, i: int, j: int)
    requires 0 <= i < |Tabs| && 0 <= j < |Tabs|
    requires IsActive(pathname, Tabs[i].href) && IsActive(pathname, Tabs[j].href)
    ensures i == j
  {
    ActiveShape(pathname, i);
    ActiveShape(pathname, j);
  }

  /** The highlighted entry for a path: its index in `Tabs`, if any. */
  function ActiveTab(pathname: string): (r: Option<nat>)
    ensures r.Some? ==> r.value < |Tabs| && IsActive(pathname, Tabs[r.value].href)
    ensures r.Some? ==> forall j | 0 <= j < |Tabs| && j != r.value :: !IsActive(pathname, Tabs[j].href)
    ensures r.None? ==> forall j | 0 <= j < |Tabs| :: !IsActive(pathname, Tabs[j].href)
  {
    var k := FirstActive(pathname, 0);
    if k.Some? then
      forall j | 0 <= j < |Tabs| && IsActive(pathname, Tabs[j].href) ensures j == k.value {
        AtMostOneActive(pathname, k.value, j);
      }
      k
    else k
  }

  /** The first index at or after `from` whose entry is active. */
  function FirstActive(pathname: string, from: nat): (r: Option<nat>)
    requires from <= |Tabs|
    ensures r.Some? ==> from <= r.value < |Tabs| && IsActive(pathname, Tabs[r.value].href)
    ensures r.None? ==> forall j | from <= j < |Tabs| :: !IsActive(pathname, Tabs[j].href)
    decreases |Tabs| - from
  {
    if from == |Tabs| then None
    else if IsActive(pathname, Tabs[from].href) then Some(from)
    else FirstActive(pathname, from + 1)
  }
}

=== FILE: redirects.dfy ===
/**
 * The redirect resolver of the Next.js front end (`proxy.ts`): a module-level
 * cache of the redirect table, refreshed from the content API at most every
 * five minutes, and a per-request decision to pass the request on or to
 * redirect it.
 *
 * The wall clock (`Date.now()`) and the outcome of the `fetch` are inputs, so a
 * request is one pure step `(Cache, now, url, fetch) -> (Cache', Action)`.
 */
module Redirects {
  import opened Base
  import Text

  /** One entry of the table served by `GET /api/content/redirects`. */
  datatype Rule = Rule(from: string, to: string, permanent: bool)

  /** The module-level state: `redirectsCache` and `lastFetch` (milliseconds). */
  datatype Cache = Cache(rules: seq<Rule>, lastFetch: int)

  /** `CACHE_DURATION`: five minutes in milliseconds. */
  const CacheDuration: int := 5 * 60 * 1000

  /** The state at module load: an empty table fetched at time 0. */
  const Initial: Cache := Cache([], 0)

  /** A response body: JSON whose `redirects` field may be absent, or a body `response.json()` rejects. */
  datatype Body = Json(redirects: Option<seq<Rule>>) | Malformed

  /** What the `fetch` of the redirect table produced: a response, or a thrown network error. */
  datatype FetchResult = Response(ok: bool, body: Body) | NetworkError

  /** The request URL: the path, and the rest (query string), which a redirect keeps. */
  datatype Url = Url(pathname: string, search: string)

  /** `NextResponse.next()`, or `NextResponse.redirect(url, status)`. */
  datatype Action = Next | Redirect(url: Url, status: int)

  /** The cache after a request, the action taken, and whether the network was consulted. */
  datatype Outcome = Outcome(cache: Cache, action: Action, fetched: bool)

  /** Paths the proxy skips: raw prefixes `/_next` and `/api`, or any `.` in the path. */
  predicate Bypassed(path: string) {
    Text.StartsWith(path, "/_next") || Text.StartsWith(path, "/api") || '.' in path
  }

  /** The cached table is served without a fetch: it is non-empty and younger than the TTL. */
  predicate IsFresh(c: Cache, now: int) {
    |c.rules| > 0 && now - c.lastFetch < CacheDuration
  }

  /**
   * The table a fetch delivers when it succeeds: an ok response whose body
   * parses, with `data.redirects || []`. A non-ok response, a body that does
   * not parse and a network error all deliver nothing.
   */
  function Delivered(f: FetchResult): (d: Option<seq<Rule>>) {
    if f.Response? && f.ok && f.body.Json? then Some(ValueOr(f.body.redirects, [])) else None
  }

  /**
   * `fetchRedirects()` at time `now`: the cache afterwards (whose table is the
   * function's return value) and whether a fetch was made.
   */
  function FetchRedirects(c: Cache, now: int, f: FetchResult): (r: (Cache, bool))
    ensures r.1 <==> !IsFresh(c, now)
    ensures !r.1 ==> r.0 == c
    ensures r.1 && Delivered(f).Some? ==> r.0 == Cache(Delivered(f).value, now)
    ensures Delivered(f).None? ==> r.0 == c
  {
    if IsFresh(c, now) then (c, false)
    else
      match Delivered(f)
      case Some(table) => (Cache(table, now), true)
      case None => (c, true)
  }

  /** `i` is the position of the first rule whose `from` equals `path`. */
  predicate FirstMatch(rules: seq<Rule>, path: string, i: nat) {
    && i < |rules|
    && rules[i].from == path
    && forall j | 0 <= j < i :: rules[j].from != path
  }

  /** `redirects.find((r) => r.from === pathname)`, as an index. */
  function Find(rules: seq<Rule>, path: string): (r: Option<nat>)
    ensures r.Some? ==> FirstMatch(rules, path, r.value)
    ensures r.None? ==> forall j | 0 <= j < |rules| :: rules[j].from != path
  {
    if rules == [] then None
    else if rules[0].from == path then Some(0)
    else
      match Find(rules[1..], path)
      case None => None
      case Some(i) => Some(i + 1)
  }

  /**
   * The lookup and status choice: the first rule matching the path exactly
   * redirects to its `to` with 308 when permanent and 307 otherwise; no match
   * passes the request on.
   */
  function Resolve(rules: seq<Rule>, url: Url): (a: Action)
    ensures a.Next? <==> forall j | 0 <= j < |rules| :: rules[j].from != url.pathname
    ensures a.Redirect? ==> a.status == 307 || a.status == 308
    ensures a.Redirect? ==> exists i: nat :: FirstMatch(rules, url.pathname, i)
                                     && a.url == url.(pathname := rules[i].to)
                                     && (a.status == 308 <==> rules[i].permanent)
  {
    match Find(rules, url.pathname)
    case None => Next
    case Some(i) => Redirect(url.(pathname := rules[i].to), if rules[i].permanent then 308 else 307)
  }

  /** `proxy(request)`: one request handled against the cache at time `now`. */
  function Proxy(c: Cache, now: int, url: Url, f: FetchResult): (r: Outcome)
    ensures Bypassed(url.pathname) ==> r == Outcome(c, Next, false)
    ensures !Bypassed(url.pathname) ==> (r.fetched <==> !IsFresh(c, now))
    ensures !r.fetched ==> r.cache == c
    ensures r.fetched && Delivered(f).Some? ==> r.cache == Cache(Delivered(f).value, now)
    ensures Delivered(f).None? ==> r.cache == c
    ensures r.action.Next? || r.action.status == 307 || r.action.status == 308
    ensures r.action.Redirect? ==> !Bypassed(url.pathname)
    ensures !Bypassed(url.pathname) ==> r.action == Resolve(r.cache.rules, url)
  {
    if Bypassed(url.pathname) then Outcome(c, Next, false)
    else
      var (c', fetched) := FetchRedirects(c, now, f);
      Outcome(c', Resolve(c'.rules, url), fetched)
  }

  /**
   * A cache hit does not consult the network: the outcome is the same
   * whatever the fetch would have returned.
   */
  lemma CacheHitIgnoresFetch(c: Cache, now: int, url: Url, f1: FetchResult, f2: FetchResult)
    requires IsFresh(c, now)
    ensures Proxy(c, now, url, f1) == Proxy(c, now, url, f2)
    ensures !Proxy(c, now, url, f1).fetched
  {
  }

  /**
   * After a successful refresh at `t0` that delivered a non-empty table, every
   * request in the next five minutes is answered from that table, without a fetch.
   */
  lemma RefreshServesUntilExpiry(c: Cache, t0: int, u0: Url, f0: FetchResult,
                                 t1: int, u1: Url, f1: FetchResult)
    requires !Bypassed(u0.pathname) && !IsFresh(c, t0)
    requires Delivered(f0).Some? && |Delivered(f0).value| > 0
    requires t0 <= t1 < t0 + CacheDuration
    ensures var c1 := Proxy(c, t0, u0, f0).cache;
            && c1 == Cache(Delivered(f0).value, t0)
            && Proxy(c1, t1, u1, f1) == Outcome(c1, if Bypassed(u1.pathname) then Next else Resolve(Delivered(f0).value, u1), false)
  {
  }

  /**
   * A failed refresh keeps both the table and its timestamp, and the request
   * is answered from the stale table.
   */
  lemma FailedRefreshServesStale(c: Cache, now: int, url: Url, f: FetchResult)
    requires !Bypassed(url.pathname) && Delivered(f).None?
    ensures Proxy(c, now, url, f) == Outcome(c, Resolve(c.rules, url), !IsFresh(c, now))
  {
  }

  /** An empty table, fetched or not, passes every request on. */
  lemma EmptyTablePassesOn(now: int, url: Url, f: FetchResult)
    requires Delivered(f).None? || Delivered(f) == Some([])
    ensures Proxy(Initial, now, url, f).action == Next
  {
  }

  /**
   * The bypass is a raw string test: `/apiary` is skipped like `/api/x`, and
   * the proxy never looks at the table for it.
   */
  lemma BypassIsRawPrefix(c: Cache, now: int, f: FetchResult)
    ensures Bypassed("/apiary")
    ensures Proxy(c, now, Url("/apiary", ""), f) == Outcome(c, Next, false)
  {
    assert "/apiary"[..4] == "/api";
  }

  /** Successive requests, each with its own time, URL and fetch outcome. */
  datatype Request = Request(now: int, url: Url, fetch: FetchResult)

  /** The cache after handling `reqs` in order, starting from `c`. */
  function Run(c: Cache, reqs: seq<Request>): (last: Cache)
    decreases |reqs|
  {
    if reqs == [] then c
    else Run(Proxy(c, reqs[0].now, reqs[0].url, reqs[0].fetch).cache, reqs[1..])
  }

  /**
   * Over any run, the cached table is the one the run started with or the
   * table delivered by one of its requests, and the timestamp is that
   * request's time: the table is only ever replaced wholesale.
   */
  lemma {:induction false} RunReplacesWholesale(c: Cache, reqs: seq<Request>)
    ensures var c' := Run(c, reqs);
            || c' == c
            || exists i | 0 <= i < |reqs| :: Delivered(reqs[i].fetch).Some?
                                           && c' == Cache(Delivered(reqs[i].fetch).value, reqs[i].now)
    decreases |reqs|
  {
    if reqs != [] {
      var c1 := Proxy(c, reqs[0].now, reqs[0].url, reqs[0].fetch).cache;
      RunReplacesWholesale(c1, reqs[1..]);
      var c' := Run(c1, reqs[1..]);
      if c' != c1 {
        var i :| 0 <= i < |reqs[1..]| && Delivered(reqs[1..][i].fetch).Some?
                 && c' == Cache(Delivered(reqs[1..][i].fetch).value, reqs[1..][i].now);
        assert reqs[1..][i] == reqs[i + 1];
      }
    }
  }

  /**
   * The scenario of a table `[/blog -> /articles, temporary]` fetched at 0:
   * at 100000 ms `/blog` redirects with 307 without a fetch; at 400000 ms the
   * refresh is attempted, fails, and the stale table still redirects.
   */
  lemma StaleScenario(f: FetchResult)
    requires Delivered(f).None?
    ensures var c := Cache([Rule("/blog", "/articles", false)], 0);
            && Proxy(c, 100000, Url("/blog", ""), f) == Outcome(c, Redirect(Url("/articles", ""), 307), false)
            && Proxy(c, 400000, Url("/blog", ""), f) == Outcome(c, Redirect(Url("/articles", ""), 307), true)
  {
    var c := Cache([Rule("/blog", "/articles", false)], 0);
    assert !Bypassed("/blog") by {
      assert "/blog"[..4][1] != "/api"[1];
    }
    assert Find(c.rules, "/blog") == Some(0);
  }
}

=== FILE: regex.dfy ===
/**
 * The fragment of regular expressions the content validators use: a pattern
 * anchored at both ends (`^...$`) that is a sequence of pieces, each a
 * character class (a bracket expression or a single literal) with a
 * repetition count (`+`, `{n}`, or exactly once). Matching is the usual
 * backtracking semantics, so a piece may take any admissible number of
 * characters.
 */
module Regex {
  import opened Base

  /** An inclusive character range of a bracket expression, such as `a-z`. */
  datatype Range = Range(lo: char, hi: char)

  /** A class repeated at least `min` and at most `max` times (`None` is unbounded). */
  datatype Piece = Piece(cls: seq<Range>, min: nat, max: Option<nat>)

  type Pattern = seq<Piece>

  predicate InClass(c: char, cls: seq<Range>) {
    exists i | 0 <= i < |cls| :: cls[i].lo <= c <= cls[i].hi
  }

  predicate AllIn(s: string, cls: seq<Range>) {
    forall i | 0 <= i < |s| :: InClass(s[i], cls)
  }

  predicate WithinMax(p: Piece, k: nat) {
    p.max.None? || k <= p.max.value
  }

  /** The whole of `s` matches `ps`. */
  function Matches(ps: Pattern, s: string): (m: bool)
    decreases |ps|, 1, 0
  {
    if ps == [] then s == [] else MatchRun(ps, s, 0)
  }

  /**
   * With the first `k` characters taken by the first piece, some number of
   * characters at least `k` completes a match.
   */
  function MatchRun(ps: Pattern, s: string, k: nat): (m: bool)
    requires ps != [] && k <= |s|
    decreases |ps|, 0, |s| - k
  {
    var p := ps[0];
    || (p.min <= k && WithinMax(p, k) && Matches(ps[1..], s[k..]))
    || (k < |s| && WithinMax(p, k + 1) && InClass(s[k], p.cls) && MatchRun(ps, s, k + 1))
  }

  /** `MatchRun` tries every admissible length for the first piece. */
  lemma {:induction false} MatchRunMeaning(ps: Pattern, s: string, k: nat)
    requires ps != [] && k <= |s|
    requires AllIn(s[..k], ps[0].cls) && WithinMax(ps[0], k)
    ensures MatchRun(ps, s, k) <==>
              exists j | k <= j <= |s| :: && ps[0].min <= j && WithinMax(ps[0], j)
                                          && AllIn(s[..j], ps[0].cls) && Matches(ps[1..], s[j..])
    decreases |s| - k
  {
    var p := ps[0];
    if k < |s| && WithinMax(p, k + 1) && InClass(s[k], p.cls) {
      var t := s[..k + 1];
      assert AllIn(t, p.cls) by {
        forall i | 0 <= i < |t|
          ensures InClass(t[i], p.cls)
        {
          if i < k {
            assert t[i] == s[..k][i];
          }
        }
      }
      MatchRunMeaning(ps, s, k + 1);
    }
    if MatchRun(ps, s, k) {
      if p.min <= k && WithinMax(p, k) && Matches(ps[1..], s[k..]) {
      } else {
        var j :| k + 1 <= j <= |s| && p.min <= j && WithinMax(p, j)
                 && AllIn(s[..j], p.cls) && Matches(ps[1..], s[j..]);
      }
    }
    if exists j | k <= j <= |s| :: && p.min <= j && WithinMax(p, j)
                                   && AllIn(s[..j], p.cls) && Matches(ps[1..], s[j..]) {
      var j :| k <= j <= |s| && p.min <= j && WithinMax(p, j)
               && AllIn(s[..j], p.cls) && Matches(ps[1..], s[j..]);
      if j > k {
        assert s[..j][k] == s[k];
        assert WithinMax(p, k + 1);
      }
    }
  }

  /** A single piece matches exactly the strings of admissible length drawn from its class. */
  lemma SinglePiece(p: Piece, s: string)
    ensures Matches([p], s) <==> p.min <= |s| && WithinMax(p, |s|) && AllIn(s, p.cls)
  {
    var ps := [p];
    MatchRunMeaning(ps, s, 0);
    assert ps[1..] == [];
    if Matches(ps, s) {
      var j :| 0 <= j <= |s| && p.min <= j && WithinMax(p, j)
               && AllIn(s[..j], p.cls) && Matches(ps[1..], s[j..]);
      assert s[..j] == s;
    }
    if p.min <= |s| && WithinMax(p, |s|) && AllIn(s, p.cls) {
      assert s[..|s|] == s && s[|s|..] == [];
    }
  }

  /**
   * A piece taking exactly one character followed by a second piece: the
   * first character is in the first class and the rest matches the second piece.
   */
  lemma OneThenPiece(first: seq<Range>, p: Piece, s: string)
    ensures Matches([Piece(first, 1, Some(1)), p], s) <==>
              |s| >= 1 && InClass(s[0], first) && Matches([p], s[1..])
  {
    var ps := [Piece(first, 1, Some(1)), p];
    MatchRunMeaning(ps, s, 0);
    assert ps[1..] == [p];
    if Matches(ps, s) {
      var j :| 0 <= j <= |s| && 1 <= j && WithinMax(ps[0], j)
               && AllIn(s[..j], first) && Matches(ps[1..], s[j..]);
      assert j == 1;
      assert s[..1][0] == s[0];
    }
    if |s| >= 1 && InClass(s[0], first) && Matches([p], s[1..]) {
      assert AllIn(s[..1], first) by {
        assert s[..1][0] == s[0];
      }
    }
  }
}

=== FILE: sorting.dfy ===
/**
 * Stable sorting by a key, the behaviour shared by Python's `list.sort(key=...)`
 * and JavaScript's `Array.prototype.sort` with a comparator (stable since
 * ECMAScript 2019). Elements are ordered by their keys under a strict total
 * order `lt`; elements with equal keys keep their original relative order.
 */
module Sorting {

  ghost predicate StrictTotalOrder<K(!new)>(lt: (K, K) -> bool) {
    && (forall a :: !lt(a, a))
    && (forall a, b, c :: lt(a, b) && lt(b, c) ==> lt(a, c))
    && (forall a, b :: a != b ==> lt(a, b) || lt(b, a))
  }

  /** No element is strictly smaller, by key, than an element before it. */
  ghost predicate SortedBy<T, K>(s: seq<T>, key: T -> K, lt: (K, K) -> bool) {
    forall i, j | 0 <= i < j < |s| :: !lt(key(s[j]), key(s[i]))
  }

  /** The elements of `s` whose key is `k`, in their order in `s`. */
  function Matching<T, K(==)>(s: seq<T>, key: T -> K, k: K): (r: seq<T>)
    ensures |r| <= |s|
  {
    if s == [] then []
    else (if key(s[0]) == k then [s[0]] else []) + Matching(s[1..], key, k)
  }

  /**
   * Inserts `x` into `s` in front of the first element whose key is strictly
   * greater, so that it lands after every element with an equal key.
   */
  function Insert<T, K>(x: T, s: seq<T>, key: T -> K, lt: (K, K) -> bool): (r: seq<T>)
    ensures multiset(r) == multiset(s) + multiset{x}
    ensures |r| == |s| + 1
  {
    if s == [] || lt(key(x), key(s[0])) then [x] + s
    else
      assert s == [s[0]] + s[1..];
      [s[0]] + Insert(x, s[1..], key, lt)
  }

  /** Insertion sort: the stable sort of `xs` by `key`. */
  function SortBy<T, K>(xs: seq<T>, key: T -> K, lt: (K, K) -> bool): (r: seq<T>)
    ensures multiset(r) == multiset(xs)
    ensures |r| == |xs|
  {
    if xs == [] then []
    else
      assert xs == xs[..|xs| - 1] + [xs[|xs| - 1]];
      Insert(xs[|xs| - 1], SortBy(xs[..|xs| - 1], key, lt), key, lt)
  }

  lemma {:induction false} InsertSorted<T, K(!new)>(x: T, s: seq<T>, key: T -> K, lt: (K, K) -> bool)
    requires StrictTotalOrder(lt)
    requires SortedBy(s, key, lt)
    ensures SortedBy(Insert(x, s, key, lt), key, lt)
    decreases |s|
  {
    if s == [] || lt(key(x), key(s[0])) {
    } else {
      var t := Insert(x, s[1..], key, lt);
      InsertSorted(x, s[1..], key, lt);
      forall j | 0 <= j < |t|
        ensures !lt(key(t[j]), key(s[0]))
      {
        assert t[j] in multiset(t);
        if t[j] != x {
          assert t[j] in multiset(s[1..]);
          var m :| 0 <= m < |s[1..]| && s[1..][m] == t[j];
          assert s[m + 1] == t[j];
        }
      }
    }
  }

  /** Sorting yields a sequence ordered by key. */
  lemma {:induction false} SortBySorted<T, K(!new)>(xs: seq<T>, key: T -> K, lt: (K, K) -> bool)
    requires StrictTotalOrder(lt)
    ensures SortedBy(SortBy(xs, key, lt), key, lt)
    decreases |xs|
  {
    if xs != [] {
      SortBySorted(xs[..|xs| - 1], key, lt);
      InsertSorted(xs[|xs| - 1], SortBy(xs[..|xs| - 1], key, lt), key, lt);
    }
  }

  lemma {:induction false} MatchingNone<T, K>(s: seq<T>, key: T -> K, k: K)
    requires forall j | 0 <= j < |s| :: key(s[j]) != k
    ensures Matching(s, key, k) == []
    decreases |s|
  {
    if s != [] {
      MatchingNone(s[1..], key, k);
    }
  }

  lemma {:induction false} MatchingAppend<T, K>(a: seq<T>, b: seq<T>, key: T -> K, k: K)
    ensures Matching(a + b, key, k) == Matching(a, key, k) + Matching(b, key, k)
    decreases |a|
  {
    if a == [] {
      assert a + b == b;
    } else {
      var ab := a + b;
      assert ab[0] == a[0];
      assert ab[1..] == a[1..] + b;
      MatchingAppend(a[1..], b, key, k);
      var h := if key(a[0]) == k then [a[0]] else [];
      calc {
        Matching(ab, key, k);
        h + Matching(a[1..] + b, key, k);
        h + (Matching(a[1..], key, k) + Matching(b, key, k));
        (h + Matching(a[1..], key, k)) + Matching(b, key, k);
      }
    }
  }

  lemma {:induction false} InsertMatching<T, K(!new)>(x: T, s: seq<T>, key: T -> K, lt: (K, K) -> bool, k: K)
    requires StrictTotalOrder(lt)
    requires SortedBy(s, key, lt)
    ensures Matching(Insert(x, s, key, lt), key, k)
         == Matching(s, key, k) + (if key(x) == k then [x] else [])
    decreases |s|
  {
    if s == [] {
    } else if lt(key(x), key(s[0])) {
      var r := [x] + s;
      assert r[1..] == s;
      if key(x) == k {
        forall j | 0 <= j < |s|
          ensures key(s[j]) != k
        {
          if j > 0 {
            assert !lt(key(s[j]), key(s[0]));
          }
        }
        MatchingNone(s, key, k);
      }
    } else {
      var r := [s[0]] + Insert(x, s[1..], key, lt);
      assert r[1..] == Insert(x, s[1..], key, lt);
      InsertMatching(x, s[1..], key, lt, k);
    }
  }

  /** Matching distributes over splitting off the last element. */
  lemma MatchingSnoc<T, K>(xs: seq<T>, key: T -> K, k: K)
    requires xs != []
    ensures Matching(xs, key, k)
         == Matching(xs[..|xs| - 1], key, k) + (if key(xs[|xs| - 1]) == k then [xs[|xs| - 1]] else [])
  {
    var init, last := xs[..|xs| - 1], xs[|xs| - 1];
    assert xs == init + [last];
    MatchingAppend(init, [last], key, k);
    assert [last][1..] == [];
  }

  /** The inductive step of stability: inserting the last element keeps each key's elements in order. */
  lemma SortByStableStep<T, K(!new)>(xs: seq<T>, key: T -> K, lt: (K, K) -> bool, k: K)
    requires StrictTotalOrder(lt)
    requires xs != []
    requires SortedBy(SortBy(xs[..|xs| - 1], key, lt), key, lt)
    requires Matching(SortBy(xs[..|xs| - 1], key, lt), key, k) == Matching(xs[..|xs| - 1], key, k)
    ensures Matching(SortBy(xs, key, lt), key, k) == Matching(xs, key, k)
  {
    var init, last := xs[..|xs| - 1], xs[|xs| - 1];
    var sorted := SortBy(init, key, lt);
    assert SortBy(xs, key, lt) == Insert(last, sorted, key, lt);
    InsertMatching(last, sorted, key, lt, k);
    MatchingSnoc(xs, key, k);
  }

  /** Sorting is stable: for every key, the elements with that key keep their relative order. */
  lemma {:induction false} SortByStable<T, K(!new)>(xs: seq<T>, key: T -> K, lt: (K, K) -> bool, k: K)
    requires StrictTotalOrder(lt)
    ensures Matching(SortBy(xs, key, lt), key, k) == Matching(xs, key, k)
    decreases |xs|
  {
    if xs != [] {
      SortByStable(xs[..|xs| - 1], key, lt, k);
      SortBySorted(xs[..|xs| - 1], key, lt);
      SortByStableStep(xs, key, lt, k);
    }
  }

  /** The sort's whole contract: an ordered, stable permutation. */
  lemma SortByCorrect<T, K(!new)>(xs: seq<T>, key: T -> K, lt: (K, K) -> bool)
    requires StrictTotalOrder(lt)
    ensures SortedBy(SortBy(xs, key, lt), key, lt)
    ensures multiset(SortBy(xs, key, lt)) == multiset(xs)
    ensures forall k :: Matching(SortBy(xs, key, lt), key, k) == Matching(xs, key, k)
  {
    SortBySorted(xs, key, lt);
    forall k {
      SortByStable(xs, key, lt, k);
    }
  }

  /** Inserting an element no smaller than any other appends it. */
  lemma {:induction false} InsertLast<T, K>(x: T, s: seq<T>, key: T -> K, lt: (K, K) -> bool)
    requires forall j | 0 <= j < |s| :: !lt(key(x), key(s[j]))
    ensures Insert(x, s, key, lt) == s + [x]
    decreases |s|
  {
    if s != [] {
      InsertLast(x, s[1..], key, lt);
      assert [s[0]] + (s[1..] + [x]) == s + [x];
    }
  }

  /** A sequence already ordered by key is its own sort. */
  lemma {:induction false} SortBySortedIsIdentity<T, K>(xs: seq<T>, key: T -> K, lt: (K, K) -> bool)
    requires SortedBy(xs, key, lt)
    ensures SortBy(xs, key, lt) == xs
    decreases |xs|
  {
    if xs != [] {
      var init, last := xs[..|xs| - 1], xs[|xs| - 1];
      SortBySortedIsIdentity(init, key, lt);
      InsertLast(last, init, key, lt);
      assert init + [last] == xs;
    }
  }

  /** Sorting twice is sorting once. */
  lemma SortByIdempotent<T, K(!new)>(xs: seq<T>, key: T -> K, lt: (K, K) -> bool)
    requires StrictTotalOrder(lt)
    ensures SortBy(SortBy(xs, key, lt), key, lt) == SortBy(xs, key, lt)
  {
    SortBySorted(xs, key, lt);
    SortBySortedIsIdentity(SortBy(xs, key, lt), key, lt);
  }
}

=== FILE: text.dfy ===
/**
 * String helpers with the semantics of the JavaScript and Python built-ins the
 * source uses: `startsWith`, `str.replace(pat, "")`, `str.strip()`,
 * `str.lower()` (ASCII letters) and the UTF-16 `length` of a JavaScript string.
 * A string is a sequence of Unicode scalar values, like a Python `str`.
 */
module Text {

  /** `s.startsWith(p)` in JavaScript, `s.startswith(p)` in Python. */
  predicate StartsWith(s: string, p: string) {
    |p| <= |s| && s[..|p|] == p
  }

  /** `p` occurs somewhere in `s`. */
  predicate Contains(s: string, p: string) {
    exists i | 0 <= i <= |s| :: StartsWith(s[i..], p)
  }

  /**
   * Python's `s.replace(p, "")`: every non-overlapping occurrence of `p`,
   * scanning left to right, is deleted.
   */
  function RemoveAll(s: string, p: string): (r: string)
    requires p != []
    ensures |r| <= |s|
    decreases |s|
  {
    if |s| < |p| then s
    else if s[..|p|] == p then RemoveAll(s[|p|..], p)
    else [s[0]] + RemoveAll(s[1..], p)
  }

  /** A string in which `p` does not occur is left as it is. */
  lemma {:induction false} RemoveAllAbsent(s: string, p: string)
    requires p != []
    requires !Contains(s, p)
    ensures RemoveAll(s, p) == s
    decreases |s|
  {
    if |s| < |p| {
    } else {
      assert s[0..] == s;
      assert !StartsWith(s[0..], p);
      assert !Contains(s[1..], p) by {
        forall i | 0 <= i <= |s[1..]|
          ensures !StartsWith(s[1..][i..], p)
        {
          assert s[1..][i..] == s[i + 1..];
        }
      }
      RemoveAllAbsent(s[1..], p);
    }
  }

  /** A leading occurrence of `p` is deleted and the scan resumes after it. */
  lemma RemoveAllLeading(p: string, t: string)
    requires p != []
    ensures RemoveAll(p + t, p) == RemoveAll(t, p)
  {
    assert (p + t)[..|p|] == p;
    assert (p + t)[|p|..] == t;
  }

  /** `p` occurs in `s` at index `i`. */
  predicate MatchAt(s: string, p: string, i: nat) {
    i + |p| <= |s| && s[i..i + |p|] == p
  }

  /** At a position where `p` does not occur, that character is kept and the scan moves on by one. */
  lemma RemoveAllKeepsAt(s: string, p: string, i: nat)
    requires p != [] && i < |s| && !MatchAt(s, p, i)
    ensures RemoveAll(s[i..], p) == [s[i]] + RemoveAll(s[i + 1..], p)
  {
    assert s[i..][1..] == s[i + 1..];
    if |p| <= |s[i..]| {
      assert s[i..][..|p|] == s[i..i + |p|];
    }
  }

  /** At a position where `p` occurs, it is deleted and the scan resumes after it. */
  lemma RemoveAllDropsAt(s: string, p: string, i: nat)
    requires p != [] && MatchAt(s, p, i)
    ensures RemoveAll(s[i..], p) == RemoveAll(s[i + |p|..], p)
  {
    assert s[i..][..|p|] == s[i..i + |p|];
    assert s[i..][|p|..] == s[i + |p|..];
  }

  lemma PrefixSnoc(s: string, k: nat, r: string)
    requires 0 < k <= |s|
    ensures s[..k - 1] + ([s[k - 1]] + r) == s[..k] + r
  {
    assert s[..k] == s[..k - 1] + [s[k - 1]];
  }

  /** Text in which no occurrence of `p` starts is kept as it is, and the scan goes on after it. */
  lemma {:induction false} RemoveAllKeepsPrefix(s: string, p: string, k: nat)
    requires p != [] && k <= |s|
    requires forall i | 0 <= i < k :: !MatchAt(s, p, i)
    ensures RemoveAll(s, p) == s[..k] + RemoveAll(s[k..], p)
    decreases k
  {
    if k == 0 {
      assert s[..0] == [] && s[0..] == s;
    } else {
      RemoveAllKeepsPrefix(s, p, k - 1);
      RemoveAllKeepsAt(s, p, k - 1);
      PrefixSnoc(s, k, RemoveAll(s[k..], p));
    }
  }

  /**
   * The first occurrence of `p`, wherever it starts, is deleted: the text
   * before it is kept and the scan resumes after it. With `RemoveAllAbsent`
   * this determines the result on every input.
   */
  lemma RemoveAllFirst(s: string, p: string, k: nat)
    requires p != [] && MatchAt(s, p, k)
    requires forall i | 0 <= i < k :: !MatchAt(s, p, i)
    ensures RemoveAll(s, p) == s[..k] + RemoveAll(s[k + |p|..], p)
  {
    RemoveAllKeepsPrefix(s, p, k);
    RemoveAllDropsAt(s, p, k);
  }

  /** `"xBearer tok".replace("Bearer ", "")` is `"xtok"`. */
  lemma RemoveAllInnerExample()
    ensures RemoveAll("xBearer tok", "Bearer ") == "xtok"
  {
    var s, p := "xBearer tok", "Bearer ";
    assert s[1..8] == p;
    assert s[0..7][0] == 'x';
    assert !MatchAt(s, p, 0);
    RemoveAllFirst(s, p, 1);
    assert s[8..] == "tok";
    assert s[..1] == "x";
  }

  /**
   * The characters Python's `str.strip()` removes: those for which
   * `str.isspace()` holds.
   */
  predicate IsSpace(c: char) {
    var n := c as int;
    || 0x09 <= n <= 0x0D || 0x1C <= n <= 0x20 || n == 0x85 || n == 0xA0 || n == 0x1680
    || 0x2000 <= n <= 0x200A || n == 0x2028 || n == 0x2029 || n == 0x202F || n == 0x205F
    || n == 0x3000
  }

  predicate AllSpace(s: string) {
    forall i | 0 <= i < |s| :: IsSpace(s[i])
  }

  function StripLeft(s: string): (r: string)
    ensures |r| <= |s| && r == s[|s| - |r|..]
    ensures AllSpace(s[..|s| - |r|])
    ensures r != [] ==> !IsSpace(r[0])
  {
    if s != [] && IsSpace(s[0]) then
      var r := StripLeft(s[1..]);
      assert s[..|s| - |r|] == [s[0]] + s[1..][..|s[1..]| - |r|];
      r
    else s
  }

  function StripRight(s: string): (r: string)
    ensures |r| <= |s| && r == s[..|r|]
    ensures AllSpace(s[|r|..])
    ensures r != [] ==> !IsSpace(r[|r| - 1])
  {
    if s != [] && IsSpace(s[|s| - 1]) then
      var r := StripRight(s[..|s| - 1]);
      assert s[|r|..] == s[..|s| - 1][|r|..] + [s[|s| - 1]];
      r
    else s
  }

  /**
   * Python's `s.strip()`: the result neither starts nor ends with white space,
   * and `StripFrames` shows it is `s` less two runs of white space.
   */
  function Strip(s: string): (r: string)
    ensures |r| <= |s|
    ensures r != [] ==> !IsSpace(r[0]) && !IsSpace(r[|r| - 1])
  {
    StripRight(StripLeft(s))
  }

  /** `s` is the stripped string framed by two runs of white space. */
  lemma StripFrames(s: string)
    ensures exists i, j | 0 <= i <= j <= |s| :: Strip(s) == s[i..j] && AllSpace(s[..i]) && AllSpace(s[j..])
  {
    var l := StripLeft(s);
    var r := StripRight(l);
    var i := |s| - |l|;
    assert r == s[i..i + |r|];
    assert s[i + |r|..] == l[|r|..];
  }

  /** Stripping a string that is already framed by white space recovers its core. */
  lemma {:induction false} StripFramed(w1: string, v: string, w2: string)
    requires AllSpace(w1) && AllSpace(w2)
    requires v != [] ==> !IsSpace(v[0]) && !IsSpace(v[|v| - 1])
    ensures Strip(w1 + v + w2) == v
  {
    var t := v + w2;
    assert w1 + v + w2 == w1 + t;
    StripLeftSkips(w1, t);
    if v == [] {
      assert t == w2;
      StripLeftAllSpace(w2);
      assert StripLeft(w1 + v + w2) == [];
    } else {
      assert t[0] == v[0];
      StripLeftKeeps(t);
      StripRightFramed(v, w2);
    }
  }

  /** A string that does not start with white space is left as it is by `StripLeft`. */
  lemma StripLeftKeeps(t: string)
    requires t != [] && !IsSpace(t[0])
    ensures StripLeft(t) == t
  {
  }

  lemma {:induction false} StripLeftSkips(w: string, t: string)
    requires AllSpace(w)
    ensures StripLeft(w + t) == StripLeft(t)
    decreases |w|
  {
    if w == [] {
      assert w + t == t;
    } else {
      assert (w + t)[1..] == w[1..] + t;
      StripLeftSkips(w[1..], t);
    }
  }

  lemma {:induction false} StripLeftAllSpace(t: string)
    requires AllSpace(t)
    ensures StripLeft(t) == []
    decreases |t|
  {
    if t != [] {
      StripLeftAllSpace(t[1..]);
    }
  }

  lemma {:induction false} StripRightFramed(v: string, w: string)
    requires AllSpace(w)
    requires v != [] ==> !IsSpace(v[|v| - 1])
    ensures StripRight(v + w) == v
    decreases |w|
  {
    if w == [] {
      assert v + w == v;
      if v == [] {
      }
    } else {
      var vw := v + w;
      assert vw[..|vw| - 1] == v + w[..|w| - 1];
      StripRightFramed(v, w[..|w| - 1]);
    }
  }

  /** `c.lower()` for the ASCII letters; every other character is kept. */
  function LowerChar(c: char): (l: char) {
    if 'A' <= c <= 'Z' then (c as int - 'A' as int + 'a' as int) as char else c
  }

  /**
   * Python's `s.lower()`, restricted to ASCII case mapping. Non-ASCII case
   * mapping is not modelled.
   */
  function LowerAscii(s: string): (r: string)
    ensures |r| == |s|
    ensures forall i | 0 <= i < |s| :: r[i] == LowerChar(s[i])
  {
    if s == [] then [] else [LowerChar(s[0])] + LowerAscii(s[1..])
  }

  /** The character lies outside the Basic Multilingual Plane. */
  predicate IsAstral(c: char) {
    c as int > 0xFFFF
  }

  /**
   * The JavaScript `length` of a string: the number of UTF-16 code units,
   * two for every character outside the Basic Multilingual Plane.
   */
  function Utf16Length(s: string): (n: nat)
    ensures |s| <= n <= 2 * |s|
    ensures n == |s| <==> forall i | 0 <= i < |s| :: !IsAstral(s[i])
  {
    if s == [] then 0
    else (if IsAstral(s[0]) then 2 else 1) + Utf16Length(s[1..])
  }

  /** Python's `a < b` on strings: lexicographic by code point, a proper prefix first. */
  predicate StrLt(a: string, b: string) {
    if a == [] then b != []
    else if b == [] then false
    else if a[0] != b[0] then a[0] < b[0]
    else StrLt(a[1..], b[1..])
  }

  lemma {:induction false} StrLtIrreflexive(a: string)
    ensures !StrLt(a, a)
    decreases |a|
  {
    if a != [] {
      StrLtIrreflexive(a[1..]);
    }
  }

  lemma {:induction false} StrLtTransitive(a: string, b: string, c: string)
    requires StrLt(a, b) && StrLt(b, c)
    ensures StrLt(a, c)
    decreases |a|
  {
    if a != [] && b != [] && c != [] && a[0] == b[0] && b[0] == c[0] {
      StrLtTransitive(a[1..], b[1..], c[1..]);
    }
  }

  lemma {:induction false} StrLtConnected(a: string, b: string)
    requires a != b
    ensures StrLt(a, b) || StrLt(b, a)
    decreases |a|
  {
    if a != [] && b != [] && a[0] == b[0] {
      assert a == [a[0]] + a[1..] && b == [b[0]] + b[1..];
      StrLtConnected(a[1..], b[1..]);
    }
  }

  /** A string made only of characters outside the Basic Multilingual Plane has twice as many UTF-16 units. */
  lemma {:induction false} Utf16AllAstral(s: string)
    requires forall i | 0 <= i < |s| :: IsAstral(s[i])
    ensures Utf16Length(s) == 2 * |s|
    decreases |s|
  {
    if s != [] {
      Utf16AllAstral(s[1..]);
    }
  }
}
